=== FILE: README.md ===
# Disco control script, modelled in Dafny

`bin/disco.py` starts, stops and inspects the processes of a Disco cluster
node: the Erlang master, the lighttpd web servers in front of the master and
of each worker, and a remote Erlang debugging shell. This project models its
core as pure functions, and proves what the script promises about it:

- **Settings (`DiscoSettings`).** A settings object is a map of overrides
  over a table of twenty default expressions. Defaults refer to other
  settings, and a lookup resolves those references recursively. The default
  graph is acyclic: each key has a rank, and each reference points to a
  lower rank. That ranking also shows why resolution terminates. The child
  environment is the inherited environment, updated with every default-table
  key rendered with `str`.
- **Identity.** A supervised process is identified by its class name, host
  and port. That triple names its pid file and its log file.
- **Lifecycle (`server`).** `start`, `stop`, `status`, `restart` and `send`
  work over an abstract operating system:
  - the contents of files;
  - the pids whose process group can be probed (`live`);
  - the pids that refuse `SIGTERM` (`shielded`).

  Spawning a program is an oracle supplied as a parameter (`World.exec`). It
  gives the exit code and the system afterwards, or reports that the program
  could not be launched.
- **Roles.** The master forwards each command to its web server. `master
  nodaemon` runs the master in the foreground between starting and stopping
  its web server. A worker only forwards. `debug` attaches a remote shell.
  `main` defaults the role to `master` and the command to `status`.

Python generators are lazy, and the model keeps that explicit. Running a
command gives an `Outcome`, which records four things:

- the messages yielded;
- the exception that stopped the generator, if any;
- the system afterwards;
- the trace of programs spawned and pids signalled.

`Then(a, b)` is `itertools.chain` once `a` has completed. A part that raises
stops every later part from running. The parts that Python evaluates eagerly
are modelled as running before the lazy ones, in source order:

- the `getattr` of a command name;
- the construction of a master's web-server child;
- `basic_args` inside `nodaemon`'s generator expression.

Modules, one file each, plus the laws about them:

- `Results`: `Option` and `Result`.
- `Errors`: the exceptions.
- `Text`: `strip`, `split`, `readline`, `int` and `str` of integers.
- `Paths`: `os.path.join`.
- `Settings` and `SettingsLaws`.
- `Server` and `ServerLaws`.
- `Roles` and `RolesLaws`.

## Model

| member | source | states |
|---|---|---|
| Settings.Lookup | bin/disco.py:38-41 | An overridden key resolves to exactly its override. A key with no override and no default is a lookup error. |
| Settings.LookupDefault | bin/disco.py:39-40 | A key without an override takes the value of its default expression, evaluated against the same settings. |
| Settings.DefaultsRanked | bin/disco.py:7-28 | Every key a default refers to has a smaller rank than the key itself. |
| Settings.DefaultsAcyclic | bin/disco.py:7-28 | A chain of default-to-default references never returns to its start and has at most three keys, so resolution terminates. |
| Settings.EvalAll | bin/disco.py:40 | Evaluating a list of parts succeeds exactly when every part does, and then yields each part's value in order. |
| Settings.Overlay | bin/disco.py:46 | `update` with stringified lookups: succeeds exactly when every key resolves, and then holds every updated key's rendered value and every other key's old value. A failure is some key's own lookup error. |
| Settings.Environment | bin/disco.py:43-47 | The environment has exactly the inherited variables plus the default-table keys. Default keys carry their rendered resolved values, and every other inherited variable is unchanged. |
| Settings.StrSetting | bin/disco.py:72 | A setting used as a string succeeds exactly when it resolves to a Python string. |
| SettingsLaws.DataFollowsRoot | bin/disco.py:18 | Without a `DISCO_DATA` override, the data directory is `DISCO_ROOT` joined with `data`, whenever the root, overridden or not, resolves to a string. |
| SettingsLaws.DataNeedsStringRoot | bin/disco.py:18 | Without a `DISCO_DATA` override, a root that is not a string makes the data directory fail, as `os.path.join` does. |
| SettingsLaws.NameFollowsScgiPort | bin/disco.py:12 | Without an override, `DISCO_NAME` is `disco_` followed by the rendered SCGI port. |
| SettingsLaws.MasterPortFollowsPort | bin/disco.py:11 | Without an override, the master's HTTP port resolves exactly as `DISCO_PORT` does. |
| SettingsLaws.ConfigOfAbsoluteName | bin/disco.py:21 | When the cluster name is an absolute path, `DISCO_CONFIG` is that name plus `.config`, whatever the root is. `None` is included, because `os.path.join` drops the root without reading it. |
| SettingsLaws.ConfigNeedsStringRoot | bin/disco.py:21 | When the root is not a string and `'%s.config' % DISCO_NAME` is relative, `DISCO_CONFIG` fails. |
| SettingsLaws.ConfigFollowsRoot | bin/disco.py:21 | Without an override, `DISCO_CONFIG` is the root joined with the cluster name plus `.config`. |
| SettingsLaws.LocalDirFollowsRoot | bin/disco.py:22 | Without an override, `DISCO_LOCAL_DIR` is the root joined with `local` and `_` plus the cluster name. |
| SettingsLaws.MasterRootFollowsData | bin/disco.py:20 | Without an override, `DISCO_MASTER_ROOT` is the data directory joined with `_` plus the cluster name. |
| SettingsLaws.DefaultName | bin/disco.py:12-16 | With neither overridden, the SCGI port is the integer 4444 and the cluster name is `disco_4444`. |
| SettingsLaws.RootOverrideMovesPaths | bin/disco.py:18-22 | With the root overridden to `r`, data, config and local directory become `r/data`, `r/disco_4444.config` and `r/local/_disco_4444`. |
| SettingsLaws.DefaultDataDirectory | bin/disco.py:15-18 | With no overrides at all, the data directory is `/srv/disco/data`. |
| SettingsLaws.MovedDataDirectory | bin/disco.py:15-18 | Overriding only the root to `/opt/x` moves the data directory to `/opt/x/data`. |
| Paths.Join | bin/disco.py:76 | `os.path.join(a, b)` ends with `b`. An absolute `b` replaces `a`. Otherwise the result starts with `a`, with one separator added unless `a` is empty or ends in `/`. |
| Settings.JoinValues | bin/disco.py:18-22 | `os.path.join(path, *parts)` on any values. It succeeds exactly when every part is a string and either the first part is absolute or `path` is a string. The result is the string fold of `Paths.Join`, in which an absolute part restarts the path. Failure is always `NotAString`. |
| Paths.JoinInjective | bin/disco.py:76 | Joining relative names onto the same directory gives different paths for different names. |
| Text.WordsOfUnwords | bin/disco.py:154-155 | Joining whitespace-free, non-empty words with spaces and splitting the result gives back exactly those words. This is the inverse that pins `str.split()` down. |
| Text.WordsAreWords | bin/disco.py:154 | `str.split()` yields only non-empty words free of whitespace. |
| Text.WordsKeepVisible | bin/disco.py:154 | The words of a string, concatenated, are exactly its non-whitespace characters in order. |
| Text.ParseInt | bin/disco.py:68 | `int(...)` of a stripped line succeeds exactly on a run of digits, optionally preceded by a sign and then any whitespace, which Python 2 skips (`int('- 5') == -5`). |
| Text.ParseSigned | bin/disco.py:68 | A sign, any whitespace, then digits parses to the digits' value carrying that sign. |
| Text.DecimalRoundTrip | bin/disco.py:68 | A pid written in decimal parses back to the same pid. |
| Server.IdentityFile | bin/disco.py:62-76 | A per-process file succeeds exactly when its directory setting is a string. The path is that directory joined with `kind-host_port` plus the extension, and it ends with that file name. |
| Server.PidFile | bin/disco.py:74-76 | The pid file succeeds exactly when `DISCO_PID_DIR` is a string, and it ends with `kind-host_port.pid`. |
| Server.LogFile | bin/disco.py:70-72 | The log file succeeds exactly when `DISCO_LOG_DIR` is a string, and it ends with `kind-host_port.log`. |
| ServerLaws.FileNameInjective | bin/disco.py:72-76 | Equal file names mean equal class names, hosts and rendered ports, for hosts without `_`. |
| ServerLaws.PidFileInjective | bin/disco.py:62-64 | Two processes whose hosts have no `_` share a pid file only if they share class, host and rendered port. |
| ServerLaws.LogFileInjective | bin/disco.py:70-72 | The same holds for log files. |
| ServerLaws.PidFileIsNotLogFile | bin/disco.py:70-76 | No process's pid file is any process's log file. |
| ServerLaws.IdentityCollisions | bin/disco.py:62-64 | The triple is not recovered from the path. A master with port string `4444` and one with port integer 4444 share a pid file, and so do hosts `a_b` with port `c` and `a` with port `b_c`. |
| Server.ReadPid | bin/disco.py:66-68 | A pid is read only from a pid file whose path computes and which exists. |
| ServerLaws.ReadWrittenPid | bin/disco.py:66-68 | A pid file whose first line is a decimal pid followed only by whitespace (a `\r`, trailing spaces) reads back as that pid, and the process is running exactly when that pid is live. |
| ServerLaws.NoPidMeansStopped | bin/disco.py:100-106 | No pid-file path, no file, or a first line that is not an integer: the process is stopped. |
| Server.Describe | bin/disco.py:122-123 | A web server renders as its program, `-f` and its configuration file, and fails exactly when the program setting is not a string. The master renders as `disco master`. |
| Server.AssertStatus | bin/disco.py:96-98 | Passes exactly when the observed status is the wanted one. Otherwise the error is `"<self> already <observed>"`. |
| Server.MasterName | bin/disco.py:180-182 | The master's node name is the rendered cluster name followed by `_master`. |
| Server.Nodename | bin/disco.py:184-186 | The master's full node name is its name, `@`, and the host up to its first `.`, a label with no `.` in it. |
| Server.ErlangFlagsCarry | bin/disco.py:155-166 | Each computed value sits right after the flag that names it: code path, node name, cluster name, data root, SCGI port, local directory. |
| Server.BasicArgs | bin/disco.py:152-166 | The basic arguments succeed exactly when the settings they read resolve, with the Erlang command and the master home as strings. They are the Erlang command's words followed by the emulator flags built from those settings. |
| Server.Args | bin/disco.py:130-150 | A web server's arguments are its program, `-f`, its configuration file. The master's are its basic arguments followed by the daemon flags naming its log file. |
| Server.HttpVariables | bin/disco.py:135-140 | A web server adds exactly `DISCO_HTTP_LOG`, `DISCO_HTTP_PID` and `DISCO_HTTP_PORT`, holding its log file, its pid file and its rendered port. |
| Server.Extra | bin/disco.py:168-172 | The master adds exactly `DISCO_MASTER_PID` with its pid file. A web server adds its HTTP variables. Either fails exactly when a file path fails. |
| Server.Env | bin/disco.py:58-60 | A process's environment is the settings environment with the variant's variables on top. Those win, and every other variable keeps its settings value. |
| Server.Launch | bin/disco.py:89-91 | Explicit arguments replace `args`. The launch succeeds exactly when the arguments and the environment do. |
| Server.Start | bin/disco.py:87-94 | A running process is refused with `already running`, and nothing is spawned or changed. A stopped process whose launch cannot be computed fails with that error and nothing spawned. Otherwise exactly one program is always spawned, with the computed arguments and environment, and the system is the one the program left (unchanged if it could not be launched). A launch failure raises `NotLaunched`; a nonzero exit raises `Failed to start <self>`. Success needs exit code 0 and yields exactly `"<self> started"`. |
| ServerLaws.FailedStartMessage | bin/disco.py:91-93 | A program that runs and exits nonzero makes `start` raise the `DiscoError` whose message is `Failed to start <self>`, on the system the program left. |
| ServerLaws.StartOnlySpawns | bin/disco.py:87-94 | `start` never signals a process: everything it records is a spawn. |
| Server.StatusOp | bin/disco.py:108-109 | Status yields exactly `"<self> <running/stopped>"` and changes nothing. |
| Server.Terminate | bin/disco.py:113-118 | A signalled pid is gone afterwards, and every other live pid stays, unless the pid refuses the signal. Then nothing changes. |
| Server.Stop | bin/disco.py:111-120 | A stopped process is refused with `already stopped`. A running one has its pid signalled, and stop ends with the status message observed afterwards, even if the kill raised. |
| ServerLaws.StopLeavesStopped | bin/disco.py:111-120 | Stopping a running process that accepts the signal leaves it stopped and yields exactly `"<self> stopped"`. |
| ServerLaws.ShieldedSurvivesStop | bin/disco.py:113-120 | A pid that refuses the signal leaves the system unchanged, and stop reports the process still running. |
| Server.Restart | bin/disco.py:81-82 | Restart is stop followed by start on the system stop left behind. If stop raised, start never runs. |
| ServerLaws.RestartOfStopped | bin/disco.py:81-82 | Restarting a stopped process raises `already stopped`, and nothing is spawned or changed. |
| ServerLaws.RestartOfRunning | bin/disco.py:81-82 | Restarting a running process yields `"<self> stopped"`, signals its pid, then starts it afresh on the system without it. |
| ServerLaws.RestartOfShielded | bin/disco.py:81-82 | If the pid refuses the signal, restart reports it running, then raises `already running` with the system unchanged. |
| Server.Send | bin/disco.py:84-85 | `send` dispatches the four lifecycle commands to their operations. Any other name raises before anything runs. |
| Roles.Bootstrap | bin/disco.py:240-264 | The settings file's assignments win over the bootstrap keys. Without one, `DISCO_CONF` is the home directory joined with `conf`. |
| Roles.ConfPath | bin/disco.py:78-79 | A configuration path fails with the lookup error when `DISCO_CONF` is unset. Otherwise it succeeds exactly when `DISCO_CONF` is a string or the file name is absolute. It ends with the file name, is the name itself when that is absolute, and starts with the directory when the name is relative. |
| RolesLaws.AbsoluteConfIgnoresDirectory | bin/disco.py:78-79 | With `DISCO_CONF = None`, `/etc/l.conf` is its own path, while a relative `l.conf` fails. |
| RolesLaws.ConfNeedsBootstrap | bin/disco.py:78-79 | `DISCO_CONF` has no default: without an override, every configuration path is a lookup error. |
| RolesLaws.BootstrapConf | bin/disco.py:239-264 | Under the bootstrap, configuration files live in `conf` under the script's parent directory, unless the settings file names another directory. |
| Roles.Httpd | bin/disco.py:174-178 | A web-server child succeeds exactly when its port setting and its configuration path do. It lives on the parent's host, with that port and that configuration file. |
| RolesLaws.WebServersShareIdentity | bin/disco.py:174-178 | With the default master port, the master's web server and a worker's web server on one host share identity and pid file. |
| Roles.NewMaster | bin/disco.py:143-144 | A master is built on this host with the SCGI port, and fails exactly when that setting does. |
| Roles.MasterSend | bin/disco.py:193-196 | `nodaemon` is handled alone. Any other non-lifecycle name, `remsh` included, raises at once. A lifecycle command fails before running if the child cannot be built. |
| RolesLaws.MasterForwards | bin/disco.py:193-196 | A lifecycle command runs on the master first. If that raises, the result is the master's alone. Otherwise the child receives the same command on the system the master left. |
| RolesLaws.MasterStartWhileRunning | bin/disco.py:193-196 | `master start` while the master runs raises `already running`, and the web server is not started. |
| RolesLaws.MasterStatus | bin/disco.py:193-196 | `master status` yields the master's status line, then the web server's, and changes nothing. |
| RolesLaws.MasterLaunch | bin/disco.py:146-150 | Without explicit arguments, the master is launched with its basic arguments plus the daemon flags naming its log file, and its own environment. |
| RolesLaws.MasterStartsFirst | bin/disco.py:193-196 | A successful `master start` first spawns the detached master and first reports `disco master started`. |
| Roles.WorkerSend | bin/disco.py:212-213 | A worker whose web server cannot be built fails without running anything. |
| RolesLaws.WorkerForwards | bin/disco.py:201-213 | A worker hands every command to its web server. There is no `nodaemon` for a worker. |
| Roles.Silenced | bin/disco.py:190 | `('' for x in gen)` keeps the number of messages, the error, the system and the trace, and blanks every message. |
| RolesLaws.ForegroundLaunch | bin/disco.py:188-191 | The foreground master is launched with exactly its basic arguments, without detaching, and its one report is blanked. |
| RolesLaws.NodaemonNeedsStoppedWebServer | bin/disco.py:188-191 | `nodaemon` with the web server already running raises `already running`, and the master is never launched. |
| RolesLaws.NodaemonOrder | bin/disco.py:188-191 | `nodaemon` starts the web server, runs the master in the foreground with its basic arguments and a blank report, then stops the web server. Messages and trace come in that order. |
| RolesLaws.NodaemonLeavesWebServer | bin/disco.py:188-191 | When the foreground master fails, the chain ends with its error: the web server it started is never stopped, and no signal is sent. |
| RolesLaws.BasicArgsNonEmpty | bin/disco.py:152-166 | The basic arguments hold at least the 26 emulator flags. |
| Roles.DebugTarget | bin/disco.py:224-227 | The debug target succeeds exactly when the cluster name resolves. For `status` it is the local master's node name. Otherwise it is the master's name `@` the command. |
| RolesLaws.DebugTargetChoice | bin/disco.py:224-227 | The debug shell attaches to `name@<host up to the first '.'>` for `status` and to `name@<command>` otherwise. |
| Roles.DebugSend | bin/disco.py:223-232 | Nothing spawned means nothing changed and an error. Success yields exactly one message and spawns a program. |
| RolesLaws.RemshTail | bin/disco.py:228-229 | The remote shell's command line ends with `-remsh`, the node, `-sname` and `<pid>_remsh`. |
| RolesLaws.DebugLaunchesRemsh | bin/disco.py:223-232 | The debug shell spawns exactly one remote shell with the Erlang words and the script's environment. It succeeds exactly when the shell exits 0, yielding `closing remote shell to <cmd> (<node>)`. A nonzero exit raises `Could not connect`, on the system the shell left. A shell that cannot be launched raises `NotLaunched`, with nothing changed. |
| Roles.RoleOf | bin/disco.py:285-286 | The role is the first positional argument, `master` when there is none. |
| Roles.CommandOf | bin/disco.py:288 | The command is the second positional argument, `status` when there is none. |
| Roles.Invoke | bin/disco.py:285-289 | A role naming no supervisor is an error, raised before anything runs. |
| RolesLaws.DefaultArguments | bin/disco.py:285-289 | No arguments act as `master status`. A role alone acts as its `status`. Arguments after the command are ignored. |
| Roles.Printed | bin/disco.py:289-291 | Messages are printed under `--verbose` or for `status`, and otherwise none are. |
| RolesLaws.BareInvocation | bin/disco.py:285-291 | A bare invocation prints the master's status line and then its web server's. |

## Left out

- `execfile` of the settings file (bin/disco.py:36) runs arbitrary Python. Its assignments are a given map of values, `Store.overrides`, layered over the bootstrap keys by `Roles.Bootstrap`.
- The bootstrap directories come from `os.path.realpath(__file__)` and `dirname`, which read the file system. `Roles.Bootstrap` takes them as parameters.
- `socket.gethostname`, `os.getpid`, `os.environ` and `os.uname` are parameters: `World.host`, `World.toolPid`, `Store.environ` and `Store.sysname`.
- `subprocess.Popen(...).wait()` is the oracle `World.exec`. It returns the exit status and the system afterwards, or `LaunchFailed` for an `OSError`. Every argument reaching `World.exec` is a string: a non-string setting used as an argument (a non-string `DISCO_HTTPD`, say) fails with `NotAString` while the launch is computed, before anything is spawned, where `Popen` would raise `TypeError`.
- `os.getpgid` is membership of `Os.live`, and `os.kill` raising is membership of `Os.shielded`. Their meaning for pid 0 and negative pids is whatever the abstract system says.
- Server.Terminate: the busy-wait in `stop` (bin/disco.py:115-116) is modelled as having ended with the pid gone. It has no termination argument, and a process that ignores `SIGTERM` without raising would hang it.
- Directory creation for `must_exist`, `--print-env`, the `--verbose` banner and `SIGINT` handling (bin/disco.py:266-283, 293) are I/O and process-wide state. So are the lookup errors that the `must_exist` loop could raise before any role runs.
- Server.Send, Roles.MasterSend: only the four lifecycle commands and `nodaemon` are modelled. Any other name is the `UnknownCommand` error, though for a name that is some other attribute Python would fail differently or call it.
- Roles.Invoke: only `master`, `worker` and `debug` are modelled. Any other name is `UnknownRole`, though a name such as `server` or `lighttpd` is a global that Python would call.
- Setting values: a setting holds a string, an int or `None`. Settings of other Python types (bools, floats, unicode strings, lists, tuples) are not modelled. The settings file could assign such values, and `%s` and `os.path.join` would treat them differently.
- `server.pid`'s `readline` splits at `\n` only, and `strip` removes ASCII whitespace only. Unicode line and space characters are not modelled.
- Errors.Message renders the `DiscoError` texts. The exit status and the "fatal system error" wrapper at the top level (bin/disco.py:293-301) are not modelled.

## Behaviour of the code worth knowing

- `restart` is `chain(stop(), start())` (bin/disco.py:81-82). On a stopped process `stop` raises `already stopped`, so `start` never runs: see `ServerLaws.RestartOfStopped`.
- Distinct identity triples do not always give distinct paths (bin/disco.py:70-76). The port is rendered with `%s`, so a string port and an integer port with the same digits collide, and a host containing `_` can collide with another host. `ServerLaws.IdentityCollisions` exhibits both, and the injectivity lemmas assume hosts without `_`.
- `os.path.join` (bin/disco.py:18-22, 72, 76, 79) is modelled with its absolute-part rule (an absolute part replaces everything before it), not as plain concatenation. The first argument is not read when the next part is absolute. So `DISCO_ROOT = None` with `DISCO_NAME = '/x'` gives `DISCO_CONFIG = '/x.config'` (`SettingsLaws.ConfigOfAbsoluteName`).

=== FILE: errors.dfy ===
/** The exceptions the control script can raise while handling one command.
    The first four are `DiscoError`s, which the script reports with their
    message alone; every other kind reaches the generic "fatal system error"
    handler at the top level. */
module Errors {

  /** The externally observed state of a supervised process. */
  datatype State = Running | Stopped

  /** The word the script prints for a state. */
  function Word(st: State): string {
    match st
    case Running => "running"
    case Stopped => "stopped"
  }

  datatype Error =
      /** `"<who> already <state>"`: a lifecycle precondition was violated. */
    | Already(who: string, state: State)
      /** `"Failed to start <who>"`: the spawned program exited nonzero. */
    | StartFailed(who: string)
      /** `"Could not connect to <target> (<node>)"`: the remote shell exited nonzero. */
    | ConnectFailed(target: string, node: string)
      /** A setting that has neither an override nor a default (KeyError / NameError). */
    | MissingSetting(key: string)
      /** A setting used as a path, word list or argument that is not a string. */
    | NotAString(key: string)
      /** A command name the object has no method for (AttributeError / TypeError). */
    | UnknownCommand(name: string)
      /** A role name that does not name a supervisor class. */
    | UnknownRole(name: string)
      /** The program could not be launched at all (OSError from Popen). */
    | NotLaunched(argv: seq<string>)

  /** True of the errors raised as `DiscoError`, which exit with their message. */
  predicate IsDiscoError(e: Error) {
    e.Already? || e.StartFailed? || e.ConnectFailed?
  }

  /** The text a `DiscoError` carries. */
  function Message(e: Error): (m: string)
    requires IsDiscoError(e)
  {
    match e
    case Already(who, st) => who + " already " + Word(st)
    case StartFailed(who) => "Failed to start " + who
    case ConnectFailed(target, node) => "Could not connect to " + target + " (" + node + ")"
  }
}

=== FILE: paths.dfy ===
/** `os.path.join` of Python 2 on POSIX (posixpath.join), restricted to string
    arguments. */
module Paths {

  predicate IsAbsolute(p: string) {
    p != [] && p[0] == '/'
  }

  /** Joins one more component: an absolute component replaces the path so
      far; otherwise a `/` is inserted unless the path is empty or already
      ends in one. */
  function Join(a: string, b: string): (r: string)
    ensures |b| <= |r| && r[|r| - |b|..] == b
    ensures IsAbsolute(b) ==> r == b
    ensures !IsAbsolute(b) ==> |a| <= |r| && r[..|a|] == a
    ensures !IsAbsolute(b) ==> |r| == |a| + |b| + (if a == [] || a[|a| - 1] == '/' then 0 else 1)
  {
    if IsAbsolute(b) then b
    else if a == [] || a[|a| - 1] == '/' then a + b
    else a + "/" + b
  }

  /** `os.path.join(first, *rest)`, a left fold of `Join`. */
  function JoinAll(first: string, rest: seq<string>): string
    decreases |rest|
  {
    if rest == [] then first else JoinAll(Join(first, rest[0]), rest[1..])
  }

  lemma JoinAllPair(a: string, b: string)
    ensures JoinAll(a, [b]) == Join(a, b)
  {
    assert JoinAll(a, [b]) == JoinAll(Join(a, b), []);
  }

  lemma JoinAllTriple(a: string, b: string, c: string)
    ensures JoinAll(a, [b, c]) == Join(Join(a, b), c)
  {
    assert [b, c][1..] == [c];
    JoinAllPair(Join(a, b), c);
  }

  /** Under one directory, distinct relative names give distinct paths. */
  lemma JoinInjective(dir: string, x: string, y: string)
    requires !IsAbsolute(x) && !IsAbsolute(y)
    requires Join(dir, x) == Join(dir, y)
    ensures x == y
  {
    var r := Join(dir, x);
    assert |x| == |y|;
    assert x == r[|r| - |x|..] == y;
  }

  /** Whatever the directory, a joined path ends with its last component. */
  lemma JoinEndsWith(dir: string, name: string, suffix: string)
    requires |suffix| <= |name| && name[|name| - |suffix|..] == suffix
    ensures var r := Join(dir, name); |suffix| <= |r| && r[|r| - |suffix|..] == suffix
  {
    var r := Join(dir, name);
    assert r[|r| - |suffix|..] == r[|r| - |name|..][|name| - |suffix|..];
  }
}

=== FILE: results.dfy ===
/** Failure-compatible wrappers used throughout the model: `Option` for values
    that may be absent and `Result` for computations that may raise. */
module Results {

  datatype Option<+T> = None | Some(value: T)

  /** A computation that either produced a value or raised an error.
      Supports the `:-` operator so that Python's exception propagation
      reads as early return. */
  datatype Result<+T, +E> = Success(value: T) | Failure(error: E) {

    predicate IsFailure() {
      Failure?
    }

    function PropagateFailure<U>(): Result<U, E>
      requires Failure?
    {
      Failure(error)
    }

    function Extract(): T
      requires Success?
    {
      value
    }
  }
}

=== FILE: roles.dfy ===
/** The composite supervisors and the command-line entry: the master with
    its web-server child, the worker that only forwards to its own web
    server, the remote debug shell, and the choice of role and command. */
module Roles {
  import opened Results
  import opened Errors
  import opened Text
  import opened Settings
  import opened Server
  import Paths

  /** The settings the script itself supplies before the settings file runs:
      its own directory, the directory above it, and that directory's
      `conf`.  Assignments in the settings file replace them. */
  function Bootstrap(bin: string, home: string, fromFile: map<string, Value>): (o: map<string, Value>)
    ensures o.Keys == fromFile.Keys + {"DISCO_BIN", "DISCO_HOME", "DISCO_CONF"}
    ensures forall k :: k in fromFile ==> o[k] == fromFile[k]
    ensures "DISCO_CONF" !in fromFile ==> o["DISCO_CONF"] == VStr(Paths.Join(home, "conf"))
    ensures "DISCO_HOME" !in fromFile ==> o["DISCO_HOME"] == VStr(home)
  {
    map["DISCO_BIN" := VStr(bin), "DISCO_HOME" := VStr(home), "DISCO_CONF" := VStr(Paths.Join(home, "conf"))] + fromFile
  }

  /** `server.conf_path(name)`: a file in the configuration directory.  That
      directory has no default, so without the bootstrap it is a lookup
      error.  The path is `os.path.join`, which never reads the directory
      when the file name is absolute. */
  function ConfPath(s: Store, name: string): (r: Result<string, Error>)
    ensures r.Success? <==> Lookup(s, "DISCO_CONF").Success?
                            && (Lookup(s, "DISCO_CONF").value.VStr? || Paths.IsAbsolute(name))
    ensures Lookup(s, "DISCO_CONF").Failure? ==> r == Failure(Lookup(s, "DISCO_CONF").error)
    ensures r.Success? ==> EndsWith(r.value, name)
    ensures r.Success? && Paths.IsAbsolute(name) ==> r.value == name
    ensures r.Success? && !Paths.IsAbsolute(name) ==>
      (var conf := Lookup(s, "DISCO_CONF").value.s; |conf| <= |r.value| && r.value[..|conf|] == conf)
  {
    var conf :- Lookup(s, "DISCO_CONF");
    var path :- JoinValues(conf, [VStr(name)]);
    Paths.JoinAllPair(if conf.VStr? then conf.s else "", name);
    Success(path.s)
  }

  /** The web server a composite supervisor owns: on this host, on the port
      setting `portKey`, with the configuration file `confName`.  The port
      is looked up before the configuration path. */
  function Httpd(s: Store, host: string, portKey: string, confName: string): (r: Result<Proc, Error>)
    ensures r.Success? <==> Lookup(s, portKey).Success? && ConfPath(s, confName).Success?
    ensures r.Success? ==> (r.value.Lighttpd? && r.value.host == host
      && r.value.port == Lookup(s, portKey).value && r.value.config == ConfPath(s, confName).value)
  {
    var port :- Lookup(s, portKey);
    var config :- ConfPath(s, confName);
    Success(Lighttpd(host, port, config))
  }

  /** `master.lighttpd`. */
  function MasterHttpd(s: Store, host: string): Result<Proc, Error> {
    Httpd(s, host, "DISCO_MASTER_PORT", "lighttpd-master.conf")
  }

  /** `worker.lighttpd`. */
  function WorkerHttpd(s: Store, host: string): Result<Proc, Error> {
    Httpd(s, host, "DISCO_PORT", "lighttpd-worker.conf")
  }

  /** `master(settings)`: the master on this host, identified by its SCGI
      port, read when the object is built. */
  function NewMaster(s: Store, host: string): (r: Result<Proc, Error>)
    ensures r.Success? <==> Lookup(s, "DISCO_SCGI_PORT").Success?
    ensures r.Success? ==> r.value == Master(host, Lookup(s, "DISCO_SCGI_PORT").value)
  {
    match Lookup(s, "DISCO_SCGI_PORT")
    case Failure(e) => Failure(e)
    case Success(port) => Success(Master(host, port))
  }

  /** The outcome with every message replaced by an empty line: what
      `('' for x in gen)` yields. */
  function Silenced(o: Outcome): (r: Outcome)
    ensures |r.msgs| == |o.msgs| && forall i :: 0 <= i < |r.msgs| ==> r.msgs[i] == ""
    ensures r.halt == o.halt && r.os == o.os && r.trace == o.trace
  {
    o.(msgs := seq(|o.msgs|, _ => ""))
  }

  /** `master.nodaemon()`: builds the web server child and the master's
      basic arguments at once, then lazily starts the web server, runs the
      master in the foreground with its output suppressed, and once the
      master has exited stops the web server. */
  function Nodaemon(w: World, s: Store, m: Proc, os: Os): Outcome
    requires m.Master?
  {
    match MasterHttpd(s, m.host)
    case Failure(e) => Halted(os, e)
    case Success(child) =>
      match BasicArgs(s)
      case Failure(e) => Halted(os, e)
      case Success(basic) =>
        var up := Start(w, s, child, os, []);
        if up.halt.Some? then up
        else
          var fg := Silenced(Start(w, s, m, up.os, basic));
          if fg.halt.Some? then Then(up, fg)
          else Then(Then(up, fg), Stop(s, child, fg.os))
  }

  /** `master.send(cmd)`: `nodaemon` is handled alone; any other command
      name is resolved on the master (an unknown one, `remsh` included,
      raises at once), the child is built, and then the master's own
      outcome runs, followed by the child's for the same command. */
  function MasterSend(w: World, s: Store, m: Proc, os: Os, cmd: string): (o: Outcome)
    requires m.Master?
    ensures cmd != "nodaemon" && !IsLifecycle(cmd) ==> o == Halted(os, UnknownCommand(cmd))
    ensures cmd == "nodaemon" ==> o == Nodaemon(w, s, m, os)
    ensures IsLifecycle(cmd) && MasterHttpd(s, m.host).Failure? ==> o == Halted(os, MasterHttpd(s, m.host).error)
  {
    if cmd == "nodaemon" then Nodaemon(w, s, m, os)
    else if !IsLifecycle(cmd) then Halted(os, UnknownCommand(cmd))
    else
      match MasterHttpd(s, m.host)
      case Failure(e) => Halted(os, e)
      case Success(child) =>
        var own := Send(w, s, m, os, cmd);
        if own.halt.Some? then own else Then(own, Send(w, s, child, own.os, cmd))
  }

  /** `worker.send(cmd)`: builds the worker's web server and hands it the
      command. */
  function WorkerSend(w: World, s: Store, os: Os, cmd: string): (o: Outcome)
    ensures WorkerHttpd(s, w.host).Failure? ==> o == Halted(os, WorkerHttpd(s, w.host).error)
  {
    match WorkerHttpd(s, w.host)
    case Failure(e) => Halted(os, e)
    case Success(child) => Send(w, s, child, os, cmd)
  }

  /** The node a debug shell attaches to: the local master for `status`,
      otherwise the master's name on the host given as the command. */
  function DebugTarget(s: Store, host: string, cmd: string): (r: Result<string, Error>)
    ensures r.Success? <==> Lookup(s, "DISCO_NAME").Success?
    ensures r.Success? && cmd == "status" ==> r == Nodename(s, host)
    ensures r.Success? && cmd != "status" ==> r.value == MasterName(s).value + "@" + cmd
  {
    if cmd == "status" then Nodename(s, host)
    else
      var name :- MasterName(s);
      Success(name + "@" + cmd)
  }

  /** The remote shell's command line: the Erlang command's words, the node
      to attach to, and a short name made from the script's own pid. */
  function RemshArgs(erl: string, node: string, toolPid: int): seq<string> {
    Words(erl) + ["-remsh", node, "-sname", Decimal(toolPid) + "_remsh"]
  }

  /** `debug.send(cmd)`: runs an Erlang remote shell attached to the target
      node, with the script's own environment, and reports when it closes. */
  function DebugSend(w: World, s: Store, os: Os, cmd: string): (o: Outcome)
    ensures o.trace == [] ==> o.os == os && o.halt.Some?
    ensures o.halt.None? ==> |o.msgs| == 1 && o.trace != []
  {
    match NewMaster(s, w.host)
    case Failure(e) => Halted(os, e)
    case Success(_) =>
      match DebugTarget(s, w.host, cmd)
      case Failure(e) => Halted(os, e)
      case Success(node) =>
        match StrSetting(s, "DISCO_ERLANG")
        case Failure(e) => Halted(os, e)
        case Success(erl) =>
          var argv := RemshArgs(erl, node, w.toolPid);
          var spawn := [Spawned(argv, s.environ)];
          match w.exec(argv, s.environ, os)
          case LaunchFailed => Outcome([], Some(NotLaunched(argv)), os, spawn)
          case Exited(code, after) =>
            if code != 0 then Outcome([], Some(ConnectFailed(cmd, node)), after, spawn)
            else Outcome(["closing remote shell to " + cmd + " (" + node + ")"], None, after, spawn)
  }

  /** The role: the first positional argument, `master` when there is none. */
  function RoleOf(args: seq<string>): (r: string)
    ensures args == [] ==> r == "master"
    ensures args != [] ==> r == args[0]
  {
    if |args| > 0 then args[0] else "master"
  }

  /** The command: the second positional argument, `status` when there is
      none; later arguments are ignored. */
  function CommandOf(args: seq<string>): (r: string)
    ensures |args| < 2 ==> r == "status"
    ensures |args| >= 2 ==> r == args[1]
  {
    if |args| > 1 then args[1] else "status"
  }

  /** What `main` does once the settings are loaded: builds the object the
      role names (a master reads its port at once) and drains its `send`
      for the command.  A role naming no supervisor is an error. */
  function Invoke(w: World, s: Store, os: Os, args: seq<string>): (o: Outcome)
    ensures var role := RoleOf(args);
      role != "master" && role != "worker" && role != "debug" ==> o == Halted(os, UnknownRole(role))
  {
    var role, cmd := RoleOf(args), CommandOf(args);
    if role == "master" then
      match NewMaster(s, w.host)
      case Failure(e) => Halted(os, e)
      case Success(m) => MasterSend(w, s, m, os, cmd)
    else if role == "worker" then WorkerSend(w, s, os, cmd)
    else if role == "debug" then DebugSend(w, s, os, cmd)
    else Halted(os, UnknownRole(role))
  }

  /** The messages `main` prints: all of them under `--verbose` or for the
      `status` command, none otherwise. */
  function Printed(args: seq<string>, verbose: bool, msgs: seq<string>): (r: seq<string>)
    ensures verbose || CommandOf(args) == "status" ==> r == msgs
    ensures !verbose && CommandOf(args) != "status" ==> r == []
  {
    if verbose || CommandOf(args) == "status" then msgs else []
  }
}

=== FILE: roles_laws.dfy ===
/** What the composite supervisors and the entry point guarantee: the master
    acts before its web server and shields it from a refused command, the
    foreground master runs between the web server's start and stop, the
    debug shell picks its node from the command, and missing arguments
    default to the master's status. */
module RolesLaws {
  import opened Results
  import opened Errors
  import opened Text
  import opened Settings
  import opened Server
  import opened Roles
  import Paths
  import SettingsLaws
  import ServerLaws

  /** Without the bootstrap (or a settings file assignment) there is no
      configuration directory: every configuration path is a lookup error. */
  lemma ConfNeedsBootstrap(s: Store, name: string)
    requires "DISCO_CONF" !in s.overrides
    ensures ConfPath(s, name) == Failure(MissingSetting("DISCO_CONF"))
  {
    DefaultKeysEnumerate();
    assert "DISCO_CONF" !in DefaultKeys;
  }

  /** With the bootstrap, configuration files live in `conf` under the
      directory above the script's, unless the settings file moves them. */
  lemma BootstrapConf(bin: string, home: string, fromFile: map<string, Value>, environ: map<string, string>,
                      sysname: string, name: string)
    ensures var s := Store(Bootstrap(bin, home, fromFile), environ, sysname);
      ("DISCO_CONF" !in fromFile ==> ConfPath(s, name) == Success(Paths.Join(Paths.Join(home, "conf"), name)))
      && (forall c :: "DISCO_CONF" in fromFile && fromFile["DISCO_CONF"] == VStr(c) ==> ConfPath(s, name) == Success(Paths.Join(c, name)))
  {
  }

  /** An absolute file name needs no configuration directory at all: with
      `DISCO_CONF` set to `None` the path is still the name itself. */
  lemma AbsoluteConfIgnoresDirectory()
    ensures ConfPath(Store(map["DISCO_CONF" := VNone], map[], "Linux"), "/etc/l.conf") == Success("/etc/l.conf")
    ensures ConfPath(Store(map["DISCO_CONF" := VNone], map[], "Linux"), "l.conf") == Failure(NotAString("os.path.join"))
  {
  }

  /** Under the default ports the master's web server and a worker's web
      server on the same host share their identity, hence their pid file:
      each one's `status` observes the other. */
  lemma WebServersShareIdentity(s: Store, host: string)
    requires "DISCO_MASTER_PORT" !in s.overrides
    requires MasterHttpd(s, host).Success? && WorkerHttpd(s, host).Success?
    ensures Id(MasterHttpd(s, host).value) == Id(WorkerHttpd(s, host).value)
    ensures PidFile(s, MasterHttpd(s, host).value) == PidFile(s, WorkerHttpd(s, host).value)
  {
    SettingsLaws.MasterPortFollowsPort(s);
  }

  /** A lifecycle command sent to the master runs on the master first; only
      if that completes does the web server receive the same command, on the
      system the master left behind. */
  lemma MasterForwards(w: World, s: Store, m: Proc, os: Os, cmd: string, child: Proc)
    requires m.Master? && IsLifecycle(cmd) && MasterHttpd(s, m.host) == Success(child)
    ensures var own := Send(w, s, m, os, cmd);
            var o := MasterSend(w, s, m, os, cmd);
            (own.halt.Some? ==> o == own)
            && (own.halt.None? ==> (var fwd := Send(w, s, child, own.os, cmd);
                 o.msgs == own.msgs + fwd.msgs && o.trace == own.trace + fwd.trace
                 && o.halt == fwd.halt && o.os == fwd.os))
  {
  }

  /** `master start` while the master runs is refused before anything is
      launched: the web server is not started either. */
  lemma MasterStartWhileRunning(w: World, s: Store, m: Proc, os: Os)
    requires m.Master? && Status(s, m, os) == Running && MasterHttpd(s, m.host).Success?
    ensures MasterSend(w, s, m, os, "start") == Halted(os, Already("disco master", Running))
  {
  }

  /** `master status` reports the master, then its web server, and changes
      nothing. */
  lemma MasterStatus(w: World, s: Store, m: Proc, os: Os, child: Proc)
    requires m.Master? && MasterHttpd(s, m.host) == Success(child) && Describe(s, child).Success?
    ensures var o := MasterSend(w, s, m, os, "status");
            o.halt.None? && o.os == os && o.trace == []
            && o.msgs == ["disco master " + Word(Status(s, m, os)),
                          Describe(s, child).value + " " + Word(Status(s, child, os))]
  {
    var own := StatusOp(s, m, os);
    MasterLines(Status(s, m, os));
    assert own.msgs == ["disco master " + Word(Status(s, m, os))];
    MasterForwards(w, s, m, os, "status", child);
  }

  /** A string identity stated apart, so that the larger proofs using it
      need not unfold string literals themselves. */
  lemma MasterLines(st: State)
    ensures "disco master" + " started" == "disco master started"
    ensures "disco master" + " " + Word(st) == "disco master " + Word(st)
  {
  }

  /** Launched without explicit arguments, the master runs detached: its
      basic arguments followed by the daemon flags naming its log file. */
  lemma MasterLaunch(s: Store, m: Proc)
    requires m.Master? && Launch(s, m, []).Success?
    ensures Launch(s, m, []).value == (BasicArgs(s).value + DaemonFlags(LogFile(s, m).value), Env(s, m).value)
  {
  }

  /** A successful `master start` launches the master daemon first, with its
      full arguments, and reports it before anything the web server does. */
  lemma MasterStartsFirst(w: World, s: Store, m: Proc, os: Os, child: Proc)
    requires m.Master? && MasterHttpd(s, m.host) == Success(child)
    requires Start(w, s, m, os, []).halt.None?
    ensures var o := MasterSend(w, s, m, os, "start");
            |o.msgs| >= 1 && o.msgs[0] == "disco master started"
            && |o.trace| >= 1 && o.trace[0] == Spawned(BasicArgs(s).value + DaemonFlags(LogFile(s, m).value), Env(s, m).value)
  {
    var own := Start(w, s, m, os, []);
    var o := MasterSend(w, s, m, os, "start");
    MasterForwards(w, s, m, os, "start", child);
    var fwd := Send(w, s, child, own.os, "start");
    assert o.msgs == own.msgs + fwd.msgs && o.trace == own.trace + fwd.trace;
    MasterLines(Stopped);
    assert own.msgs[0] == "disco master started";
    MasterLaunch(s, m);
    assert own.trace[0] == Spawned(Launch(s, m, []).value.0, Launch(s, m, []).value.1);
  }

  /** The worker hands every command to its web server. */
  lemma WorkerForwards(w: World, s: Store, os: Os, cmd: string, child: Proc)
    requires WorkerHttpd(s, w.host) == Success(child)
    ensures WorkerSend(w, s, os, cmd) == Send(w, s, child, os, cmd)
    ensures !IsLifecycle(cmd) ==> WorkerSend(w, s, os, cmd) == Halted(os, UnknownCommand(cmd))
  {
  }

  /** The basic arguments are never empty, so the foreground master is
      launched with exactly them. */
  lemma BasicArgsNonEmpty(s: Store)
    requires BasicArgs(s).Success?
    ensures |BasicArgs(s).value| >= 26
  {
    var erl, home := StrSetting(s, "DISCO_ERLANG").value, StrSetting(s, "DISCO_MASTER_HOME").value;
    ErlangFlagsCarry(Paths.Join(home, "ebin"), MasterName(s).value,
                     Lookup(s, "DISCO_NAME").value, Lookup(s, "DISCO_MASTER_ROOT").value,
                     Lookup(s, "DISCO_SCGI_PORT").value, Lookup(s, "DISCO_LOCAL_DIR").value);
  }

  /** `master nodaemon` when the master's web server already runs: refused,
      and the master is never launched. */
  lemma NodaemonNeedsStoppedWebServer(w: World, s: Store, m: Proc, os: Os, child: Proc)
    requires m.Master? && MasterHttpd(s, m.host) == Success(child) && BasicArgs(s).Success?
    requires Status(s, child, os) == Running && Describe(s, child).Success?
    ensures Nodaemon(w, s, m, os) == Halted(os, Already(Describe(s, child).value, Running))
  {
  }

  /** `master nodaemon` when both programs start: the web server is started,
      the master runs in the foreground with its basic arguments only (no
      detaching), its report is blanked, and once it exits the web server is
      stopped on the system it left behind. */
  lemma NodaemonOrder(w: World, s: Store, m: Proc, os: Os, child: Proc)
    requires m.Master? && MasterHttpd(s, m.host) == Success(child) && BasicArgs(s).Success?
    requires Start(w, s, child, os, []).halt.None?
    requires Start(w, s, m, Start(w, s, child, os, []).os, BasicArgs(s).value).halt.None?
    ensures var up := Start(w, s, child, os, []);
            var fg := Start(w, s, m, up.os, BasicArgs(s).value);
            var down := Stop(s, child, fg.os);
            var o := Nodaemon(w, s, m, os);
            o.msgs == [Describe(s, child).value + " started", ""] + down.msgs
            && o.trace == up.trace + [Spawned(BasicArgs(s).value, Env(s, m).value)] + down.trace
            && o.halt == down.halt && o.os == down.os
  {
    var basic := BasicArgs(s).value;
    var up := Start(w, s, child, os, []);
    var fg := Start(w, s, m, up.os, basic);
    ForegroundLaunch(w, s, m, up.os);
    var quiet := Silenced(fg);
    var head := [Describe(s, child).value + " started"];
    assert up.msgs == head;
    assert Nodaemon(w, s, m, os) == Then(Then(up, quiet), Stop(s, child, fg.os));
    TwoLines(Describe(s, child).value + " started", "");
  }

  /** `master nodaemon` when the foreground master fails: the lazy chain
      stops there, so the web server it started is left running and no
      signal is ever sent. */
  lemma NodaemonLeavesWebServer(w: World, s: Store, m: Proc, os: Os, child: Proc)
    requires m.Master? && MasterHttpd(s, m.host) == Success(child) && BasicArgs(s).Success?
    requires Start(w, s, child, os, []).halt.None?
    requires Start(w, s, m, Start(w, s, child, os, []).os, BasicArgs(s).value).halt.Some?
    ensures var up := Start(w, s, child, os, []);
            var fg := Start(w, s, m, up.os, BasicArgs(s).value);
            var o := Nodaemon(w, s, m, os);
            o.halt == fg.halt && o.os == fg.os && o.msgs == up.msgs
            && o.trace == up.trace + fg.trace
            && forall e :: e in o.trace ==> e.Spawned?
  {
    var up := Start(w, s, child, os, []);
    var fg := Start(w, s, m, up.os, BasicArgs(s).value);
    assert Nodaemon(w, s, m, os) == Then(up, Silenced(fg));
    ServerLaws.StartOnlySpawns(w, s, child, os, []);
    ServerLaws.StartOnlySpawns(w, s, m, up.os, BasicArgs(s).value);
    ThenQuiet(up, fg);
  }

  /** A halted outcome has nothing to say, silenced or not. */
  lemma ThenQuiet(a: Outcome, b: Outcome)
    requires b.halt.Some? && b.msgs == []
    ensures Then(a, Silenced(b)) == Outcome(a.msgs, b.halt, b.os, a.trace + b.trace)
  {
    assert Silenced(b).msgs == [];
    assert a.msgs + [] == a.msgs;
  }

  /** The foreground master is launched with exactly its basic arguments,
      and its one report is blanked. */
  lemma ForegroundLaunch(w: World, s: Store, m: Proc, os: Os)
    requires m.Master? && BasicArgs(s).Success?
    requires Start(w, s, m, os, BasicArgs(s).value).halt.None?
    ensures var fg := Start(w, s, m, os, BasicArgs(s).value);
            Silenced(fg) == Outcome([""], None, fg.os, [Spawned(BasicArgs(s).value, Env(s, m).value)])
  {
    var fg := Start(w, s, m, os, BasicArgs(s).value);
    BasicArgsNonEmpty(s);
    assert Launch(s, m, BasicArgs(s).value).value.0 == BasicArgs(s).value;
    SilencedLine(fg);
  }

  /** A string identity stated apart, so that the larger proofs using it
      need not unfold string literals themselves. */
  lemma TwoLines(a: string, b: string)
    ensures [a] + [b] == [a, b]
  {
  }

  /** A string identity stated apart, so that the larger proofs using it
      need not unfold string literals themselves. */
  lemma SilencedLine(o: Outcome)
    requires |o.msgs| == 1
    ensures Silenced(o).msgs == [""]
  {
    assert Silenced(o).msgs[0] == "";
  }

  /** The debug shell attaches to the local master for `status` and to the
      master on the host named by any other command. */
  lemma DebugTargetChoice(s: Store, host: string, cmd: string)
    requires Lookup(s, "DISCO_NAME").Success?
    ensures DebugTarget(s, host, cmd)
         == Success(MasterName(s).value + "@" + (if cmd == "status" then Before(host, '.') else cmd))
  {
  }

  /** Once the settings it needs are readable, the debug shell launches
      exactly one remote shell, with the script's environment and a name
      made from the script's pid, and succeeds exactly when it exits with
      status 0. */
  lemma DebugLaunchesRemsh(w: World, s: Store, os: Os, cmd: string)
    requires NewMaster(s, w.host).Success? && DebugTarget(s, w.host, cmd).Success?
    requires StrSetting(s, "DISCO_ERLANG").Success?
    ensures var node := DebugTarget(s, w.host, cmd).value;
            var argv := RemshArgs(StrSetting(s, "DISCO_ERLANG").value, node, w.toolPid);
            var o := DebugSend(w, s, os, cmd);
            var run := w.exec(argv, s.environ, os);
            o.trace == [Spawned(argv, s.environ)]
            && argv == Words(StrSetting(s, "DISCO_ERLANG").value) + ["-remsh", node, "-sname", Decimal(w.toolPid) + "_remsh"]
            && (o.halt.None? <==> run.Exited? && run.code == 0)
            && (run.Exited? && run.code != 0 ==> o.halt == Some(ConnectFailed(cmd, node)))
            && (run.LaunchFailed? ==> o.halt == Some(NotLaunched(argv)) && o.os == os)
            && (run.Exited? ==> o.os == run.after)
            && (o.halt.None? ==> o.msgs == ["closing remote shell to " + cmd + " (" + node + ")"])
  {
  }

  /** The remote shell's command line ends with the node to attach to and
      the shell's own name. */
  lemma RemshTail(erl: string, node: string, toolPid: int)
    ensures var argv := RemshArgs(erl, node, toolPid);
            |argv| >= 4 && argv[|argv| - 4..] == ["-remsh", node, "-sname", Decimal(toolPid) + "_remsh"]
  {
    var words := Words(erl);
    var tail := ["-remsh", node, "-sname", Decimal(toolPid) + "_remsh"];
    assert RemshArgs(erl, node, toolPid)[|words|..] == tail;
  }

  /** No arguments mean `master status`; a role alone means its `status`;
      arguments after the command are ignored. */
  lemma DefaultArguments(w: World, s: Store, os: Os, args: seq<string>)
    ensures Invoke(w, s, os, []) == Invoke(w, s, os, ["master", "status"])
    ensures |args| == 1 ==> Invoke(w, s, os, args) == Invoke(w, s, os, args + ["status"])
    ensures |args| > 2 ==> Invoke(w, s, os, args) == Invoke(w, s, os, args[..2])
  {
  }

  /** A bare invocation reports the master's and its web server's status. */
  lemma BareInvocation(w: World, s: Store, os: Os, m: Proc, child: Proc)
    requires NewMaster(s, w.host) == Success(m) && MasterHttpd(s, w.host) == Success(child)
    requires Describe(s, child).Success?
    ensures var o := Invoke(w, s, os, []);
            Printed([], false, o.msgs) == o.msgs
            && o.msgs == ["disco master " + Word(Status(s, m, os)),
                          Describe(s, child).value + " " + Word(Status(s, child, os))]
  {
    MasterStatus(w, s, m, os, child);
  }
}

=== FILE: server.dfy ===
/** The `server` lifecycle protocol and its single-process variants
    (`lighttpd` and `master`): process identity, the pid and log files, the
    externally observed status, and `start`, `stop`, `status`, `restart`
    and `send` as functions from an operating-system snapshot to an outcome. */
module Server {
  import opened Results
  import opened Errors
  import opened Text
  import opened Settings
  import Paths

  /** What the script can observe of the operating system: the contents of
      the files it reads, the pids for which probing the process group
      succeeds, and the live pids that refuse a termination signal (for
      which `os.kill` raises). */
  datatype Os = Os(files: map<string, string>, live: set<int>, shielded: set<int>)

  /** How a spawned program ended: its exit status and the system as it left
      it (a daemon that backgrounded itself has written its pid file and is
      live), or the program could not be launched at all. */
  datatype Exit = Exited(code: int, after: Os) | LaunchFailed

  /** The parts of the host the script consults: its name, the script's own
      pid, and an oracle running one program to completion with the given
      argument vector and environment. */
  datatype World = World(host: string, toolPid: int, exec: (seq<string>, map<string, string>, Os) -> Exit)

  /** The externally visible actions of one command, in order. */
  datatype Effect = Spawned(argv: seq<string>, env: map<string, string>) | Signalled(pid: int)

  /** The result of draining a command's message generator: the messages it
      yielded, the exception that stopped it early if any, the system
      afterwards and what was done to it. */
  datatype Outcome = Outcome(msgs: seq<string>, halt: Option<Error>, os: Os, trace: seq<Effect>)

  /** An outcome that raised before yielding or doing anything. */
  function Halted(os: Os, e: Error): Outcome {
    Outcome([], Some(e), os, [])
  }

  /** `chain(a, b)` once `a` ran to completion: `b` runs on the system `a`
      left behind. */
  function Then(a: Outcome, b: Outcome): Outcome {
    Outcome(a.msgs + b.msgs, b.halt, b.os, a.trace + b.trace)
  }

  /** A supervised program: a web server with its port and configuration
      file, or the Erlang master with its SCGI port.  The ports are settings
      values and may be of any type. */
  datatype Proc =
    | Lighttpd(host: string, port: Value, config: string)
    | Master(host: string, port: Value)

  /** `server.id`: the class name, the host name and the port. */
  datatype Identity = Identity(kind: string, host: string, port: Value)

  function Id(p: Proc): Identity {
    Identity(if p.Lighttpd? then "lighttpd" else "master", p.host, p.port)
  }

  /** `'%s-%s_%s<ext>' % id`. */
  function FileName(id: Identity, ext: string): string {
    id.kind + "-" + id.host + "_" + Show(id.port) + ext
  }

  /** A file named after the process identity inside the directory setting
      `dirKey`, which must be a string for the join. */
  function IdentityFile(s: Store, p: Proc, dirKey: string, ext: string): (r: Result<string, Error>)
    ensures r.Success? <==> StrSetting(s, dirKey).Success?
    ensures r.Success? ==> r.value == Paths.Join(StrSetting(s, dirKey).value, FileName(Id(p), ext))
    ensures r.Success? ==> EndsWith(r.value, FileName(Id(p), ext))
  {
    var dir :- StrSetting(s, dirKey);
    var f := FileName(Id(p), ext);
    Paths.JoinEndsWith(dir, f, f);
    Success(Paths.Join(dir, f))
  }

  /** `server.pid_file`. */
  function PidFile(s: Store, p: Proc): (r: Result<string, Error>)
    ensures r.Success? <==> StrSetting(s, "DISCO_PID_DIR").Success?
    ensures r.Success? ==> EndsWith(r.value, FileName(Id(p), ".pid"))
  {
    IdentityFile(s, p, "DISCO_PID_DIR", ".pid")
  }

  /** `server.log_file`. */
  function LogFile(s: Store, p: Proc): (r: Result<string, Error>)
    ensures r.Success? <==> StrSetting(s, "DISCO_LOG_DIR").Success?
    ensures r.Success? ==> EndsWith(r.value, FileName(Id(p), ".log"))
  {
    IdentityFile(s, p, "DISCO_LOG_DIR", ".log")
  }

  /** `server.pid`: the first line of the pid file, stripped and parsed;
      `None` wherever Python raises (no path, no file, not an integer). */
  function ReadPid(s: Store, p: Proc, os: Os): (r: Option<int>)
    ensures r.Some? ==> PidFile(s, p).Success? && PidFile(s, p).value in os.files
  {
    match PidFile(s, p)
    case Failure(_) => None
    case Success(path) =>
      if path in os.files then ParseInt(Strip(FirstLine(os.files[path]))) else None
  }

  /** `server._status`: running exactly when the pid file names a pid whose
      process group can be probed; every exception on the way means stopped. */
  function Status(s: Store, p: Proc, os: Os): State {
    var pid := ReadPid(s, p, os);
    if pid.Some? && pid.value in os.live then Running else Stopped
  }

  /** `str(server)`: the web server's command line joined by spaces (its
      program setting must be a string), or `disco master`. */
  function Describe(s: Store, p: Proc): (r: Result<string, Error>)
    ensures p.Master? ==> r == Success("disco master")
    ensures p.Lighttpd? ==> (r.Success? <==> StrSetting(s, "DISCO_HTTPD").Success?)
    ensures p.Lighttpd? && r.Success? ==> r.value == StrSetting(s, "DISCO_HTTPD").value + " -f " + p.config
  {
    match p
    case Master(_, _) => Success("disco master")
    case Lighttpd(_, _, config) =>
      var httpd :- StrSetting(s, "DISCO_HTTPD");
      Success(httpd + " -f " + config)
  }

  /** `server.assert_status(want)`: the `"<self> already <state>"` error when
      the observed status differs, raised only after rendering `self`. */
  function AssertStatus(s: Store, p: Proc, os: Os, want: State): (r: Result<(), Error>)
    ensures r.Success? <==> Status(s, p, os) == want
    ensures r.Failure? && Describe(s, p).Success? ==> r.error == Already(Describe(s, p).value, Status(s, p, os))
  {
    var st := Status(s, p, os);
    if st == want then Success(())
    else
      var who :- Describe(s, p);
      Failure(Already(who, st))
  }

  /** `'"%s"' % v`: a setting rendered as an Erlang string literal. */
  function Quoted(v: Value): string {
    "\"" + Show(v) + "\""
  }

  /** `master.name`: the Erlang short name of the master node. */
  function MasterName(s: Store): (r: Result<string, Error>)
    ensures r.Success? <==> Lookup(s, "DISCO_NAME").Success?
    ensures r.Success? ==> r.value == Show(Lookup(s, "DISCO_NAME").value) + "_master"
  {
    var name :- Lookup(s, "DISCO_NAME");
    Success(Show(name) + "_master")
  }

  /** `master.nodename`: the master's name at the host's first label. */
  function Nodename(s: Store, host: string): (r: Result<string, Error>)
    ensures r.Success? <==> MasterName(s).Success?
    ensures r.Success? ==> r.value == MasterName(s).value + "@" + Before(host, '.') && '.' !in Before(host, '.')
  {
    var name :- MasterName(s);
    Success(name + "@" + Before(host, '.'))
  }

  /** The emulator flags of the master's basic arguments: its code path,
      node name, cluster name, data root, SCGI port and local directory,
      and the two expressions evaluated at boot. */
  function ErlangFlags(ebin: string, name: string, dname: Value, root: Value, scgi: Value, local: Value): seq<string> {
    ["+K", "true", "-rsh", "ssh", "-connect_all", "false",
     "-pa", ebin, "-sname", name,
     "-disco", "disco_name", Quoted(dname),
     "-disco", "disco_root", Quoted(root),
     "-disco", "scgi_port", Show(scgi),
     "-disco", "disco_localdir", Quoted(local),
     "-eval", "[handle_job, handle_ctrl]",
     "-eval", "application:start(disco)"]
  }

  /** Each computed value follows the flag that names it. */
  lemma ErlangFlagsCarry(ebin: string, name: string, dname: Value, root: Value, scgi: Value, local: Value)
    ensures var r := ErlangFlags(ebin, name, dname, root, scgi, local);
      |r| == 26 && r[6] == "-pa" && r[7] == ebin && r[8] == "-sname" && r[9] == name
      && r[11] == "disco_name" && r[12] == Quoted(dname) && r[14] == "disco_root" && r[15] == Quoted(root)
      && r[17] == "scgi_port" && r[18] == Show(scgi) && r[20] == "disco_localdir" && r[21] == Quoted(local)
  {
  }

  /** `master.basic_args`, evaluated left to right: the Erlang command split
      into words, then the emulator flags.  The node name and the cluster
      name come from the same lookup. */
  function BasicArgs(s: Store): (r: Result<seq<string>, Error>)
    ensures r.Success? <==>
      (StrSetting(s, "DISCO_ERLANG").Success? && StrSetting(s, "DISCO_MASTER_HOME").Success?
       && Lookup(s, "DISCO_NAME").Success? && Lookup(s, "DISCO_MASTER_ROOT").Success?
       && Lookup(s, "DISCO_SCGI_PORT").Success? && Lookup(s, "DISCO_LOCAL_DIR").Success?)
    ensures r.Success? ==> r.value == Words(StrSetting(s, "DISCO_ERLANG").value)
                                     + ErlangFlags(Paths.Join(StrSetting(s, "DISCO_MASTER_HOME").value, "ebin"), MasterName(s).value,
                    Lookup(s, "DISCO_NAME").value, Lookup(s, "DISCO_MASTER_ROOT").value,
                    Lookup(s, "DISCO_SCGI_PORT").value, Lookup(s, "DISCO_LOCAL_DIR").value)
  {
    var erl :- StrSetting(s, "DISCO_ERLANG");
    var home :- StrSetting(s, "DISCO_MASTER_HOME");
    var dname :- Lookup(s, "DISCO_NAME");
    var root :- Lookup(s, "DISCO_MASTER_ROOT");
    var scgi :- Lookup(s, "DISCO_SCGI_PORT");
    var local :- Lookup(s, "DISCO_LOCAL_DIR");
    Success(Words(erl) + ErlangFlags(Paths.Join(home, "ebin"), Show(dname) + "_master", dname, root, scgi, local))
  }

  /** The daemonising tail of `master.args`: detach, run under heart, and
      send the error log to the master's log file. */
  function DaemonFlags(log: string): seq<string> {
    ["-detached", "-heart", "-kernel", "error_logger", "{file, \"" + log + "\"}"]
  }

  /** `server.args` for either variant. */
  function Args(s: Store, p: Proc): (r: Result<seq<string>, Error>)
    ensures p.Lighttpd? ==> (r.Success? <==> StrSetting(s, "DISCO_HTTPD").Success?)
    ensures p.Lighttpd? && r.Success? ==> r.value == [StrSetting(s, "DISCO_HTTPD").value, "-f", p.config]
    ensures p.Master? ==> (r.Success? <==> BasicArgs(s).Success? && LogFile(s, p).Success?)
    ensures p.Master? && r.Success? ==> r.value == BasicArgs(s).value + DaemonFlags(LogFile(s, p).value)
  {
    match p
    case Lighttpd(_, _, config) =>
      var httpd :- StrSetting(s, "DISCO_HTTPD");
      Success([httpd, "-f", config])
    case Master(_, _) =>
      var basic :- BasicArgs(s);
      var log :- LogFile(s, p);
      Success(basic + DaemonFlags(log))
  }

  /** The web server's own variables. */
  function HttpVariables(log: string, pid: string, port: string): (m: map<string, string>)
    ensures m.Keys == {"DISCO_HTTP_LOG", "DISCO_HTTP_PID", "DISCO_HTTP_PORT"}
    ensures m["DISCO_HTTP_LOG"] == log && m["DISCO_HTTP_PID"] == pid && m["DISCO_HTTP_PORT"] == port
  {
    assert "DISCO_HTTP_LOG"[11] != "DISCO_HTTP_PID"[11];
    assert |"DISCO_HTTP_LOG"| != |"DISCO_HTTP_PORT"|;
    assert |"DISCO_HTTP_PID"| != |"DISCO_HTTP_PORT"|;
    map["DISCO_HTTP_LOG" := log, "DISCO_HTTP_PID" := pid, "DISCO_HTTP_PORT" := port]
  }

  /** The variables a variant adds on top of the settings environment:
      the web server's log file, pid file and port, or the master's pid
      file, computed in that order. */
  function Extra(s: Store, p: Proc): (r: Result<map<string, string>, Error>)
    ensures r.Success? <==> PidFile(s, p).Success? && (p.Lighttpd? ==> LogFile(s, p).Success?)
    ensures r.Success? && p.Lighttpd? ==> r.value == HttpVariables(LogFile(s, p).value, PidFile(s, p).value, Show(p.port))
    ensures r.Success? && p.Master? ==> r.value == map["DISCO_MASTER_PID" := PidFile(s, p).value]
  {
    match p
    case Lighttpd(_, port, _) =>
      var log :- LogFile(s, p);
      var pid :- PidFile(s, p);
      Success(HttpVariables(log, pid, Show(port)))
    case Master(_, _) =>
      var pid :- PidFile(s, p);
      Success(map["DISCO_MASTER_PID" := pid])
  }

  /** `server.env`: the settings environment updated with the variant's own
      variables; every other variable keeps its settings value. */
  function Env(s: Store, p: Proc): (r: Result<map<string, string>, Error>)
    ensures r.Success? <==> Environment(s).Success? && Extra(s, p).Success?
    ensures r.Success? ==> r.value.Keys == Environment(s).value.Keys + Extra(s, p).value.Keys
    ensures r.Success? ==> forall k :: k in Extra(s, p).value ==> r.value[k] == Extra(s, p).value[k]
    ensures r.Success? ==> forall k :: k in Environment(s).value && k !in Extra(s, p).value ==> r.value[k] == Environment(s).value[k]
  {
    var env :- Environment(s);
    var extra :- Extra(s, p);
    Success(env + extra)
  }

  /** What `start` hands to `Popen`, in the order Python finds the errors:
      the master computes its arguments before its environment; the web
      server's argument list is only type-checked when it is launched,
      after the environment. */
  function Launch(s: Store, p: Proc, args: seq<string>): (r: Result<(seq<string>, map<string, string>), Error>)
    ensures r.Success? <==> (args != [] || Args(s, p).Success?) && Env(s, p).Success?
    ensures r.Success? ==> r.value.0 == (if args != [] then args else Args(s, p).value) && r.value.1 == Env(s, p).value
  {
    match p
    case Master(_, _) =>
      var argv :- if args != [] then Success(args) else Args(s, p);
      var env :- Env(s, p);
      Success((argv, env))
    case Lighttpd(_, _, _) =>
      var env :- Env(s, p);
      var argv :- if args != [] then Success(args) else Args(s, p);
      Success((argv, env))
  }

  /** `server.start(args)`: refuses unless stopped; otherwise launches the
      program (the explicit arguments, or `server.args` when none are given)
      with the variant's environment and waits for it to exit. */
  function Start(w: World, s: Store, p: Proc, os: Os, args: seq<string>): (o: Outcome)
    ensures Status(s, p, os) == Running ==> o.halt.Some? && o.msgs == [] && o.trace == [] && o.os == os
    ensures Status(s, p, os) == Running && Describe(s, p).Success? ==> o.halt == Some(Already(Describe(s, p).value, Running))
    ensures o.trace == [] ==> o.os == os && o.halt.Some?
    ensures o.trace != [] ==> (Status(s, p, os) == Stopped && Launch(s, p, args).Success?
      && o.trace == [Spawned(Launch(s, p, args).value.0, Launch(s, p, args).value.1)])
    ensures o.halt.None? <==> (Status(s, p, os) == Stopped && Launch(s, p, args).Success?
      && var run := w.exec(Launch(s, p, args).value.0, Launch(s, p, args).value.1, os);
         run.Exited? && run.code == 0 && Describe(s, p).Success?)
    ensures o.halt.None? ==> o.msgs == [Describe(s, p).value + " started"]
    ensures o.halt.Some? ==> o.msgs == []
    ensures Status(s, p, os) == Stopped && Launch(s, p, args).Failure? ==> o == Halted(os, Launch(s, p, args).error)
    ensures Status(s, p, os) == Stopped && Launch(s, p, args).Success? ==>
      var argv, env := Launch(s, p, args).value.0, Launch(s, p, args).value.1;
      var run := w.exec(argv, env, os);
      o.trace == [Spawned(argv, env)]
      && o.os == (if run.Exited? then run.after else os)
      && (run.LaunchFailed? ==> o.halt == Some(NotLaunched(argv)))
      && (run.Exited? && run.code != 0 && Describe(s, p).Success? ==> o.halt == Some(StartFailed(Describe(s, p).value)))
  {
    match AssertStatus(s, p, os, Stopped)
    case Failure(e) => Halted(os, e)
    case Success(_) =>
      match Launch(s, p, args)
      case Failure(e) => Halted(os, e)
      case Success(launch) =>
        var (argv, env) := launch;
        var spawn := [Spawned(argv, env)];
        match w.exec(argv, env, os)
        case LaunchFailed => Outcome([], Some(NotLaunched(argv)), os, spawn)
        case Exited(code, after) =>
          match Describe(s, p)
          case Failure(e) => Outcome([], Some(e), after, spawn)
          case Success(who) =>
            if code != 0 then Outcome([], Some(StartFailed(who)), after, spawn)
            else Outcome([who + " started"], None, after, spawn)
  }

  /** `server.status()`: one message with the observed state. */
  function StatusOp(s: Store, p: Proc, os: Os): (o: Outcome)
    ensures o.os == os && o.trace == []
    ensures o.halt.None? <==> Describe(s, p).Success?
    ensures o.halt.None? ==> o.msgs == [Describe(s, p).value + " " + Word(Status(s, p, os))]
    ensures o.halt.Some? ==> o.msgs == []
  {
    match Describe(s, p)
    case Failure(e) => Halted(os, e)
    case Success(who) => Outcome([who + " " + Word(Status(s, p, os))], None, os, [])
  }

  /** The system after `os.kill(pid, SIGTERM)` and the wait for the process
      to disappear: a pid that refuses the signal raises, which `stop`
      swallows; any other pid is gone once the wait returns. */
  function Terminate(os: Os, pid: int): (r: Os)
    ensures r.files == os.files && r.shielded == os.shielded
    ensures pid in os.shielded ==> r == os
    ensures pid !in os.shielded ==> pid !in r.live && forall q :: q in os.live && q != pid ==> q in r.live
    ensures r.live <= os.live
  {
    if pid in os.shielded then os else os.(live := os.live - {pid})
  }

  /** `server.stop()`: refuses unless running; otherwise signals the pid in
      the pid file and ends with the status message, whether or not the
      signal could be delivered. */
  function Stop(s: Store, p: Proc, os: Os): (o: Outcome)
    ensures Status(s, p, os) == Stopped ==> o.halt.Some? && o.msgs == [] && o.trace == [] && o.os == os
    ensures Status(s, p, os) == Stopped && Describe(s, p).Success? ==> o.halt == Some(Already(Describe(s, p).value, Stopped))
    ensures Status(s, p, os) == Running ==> (ReadPid(s, p, os).Some? && o.trace == [Signalled(ReadPid(s, p, os).value)]
      && o.os == Terminate(os, ReadPid(s, p, os).value))
    ensures Status(s, p, os) == Running ==> (o.halt.None? <==> Describe(s, p).Success?)
    ensures o.halt.None? ==> o.msgs == [Describe(s, p).value + " " + Word(Status(s, p, o.os))]
    ensures o.halt.Some? ==> o.msgs == []
  {
    match AssertStatus(s, p, os, Running)
    case Failure(e) => Halted(os, e)
    case Success(_) =>
      var pid := ReadPid(s, p, os).value;
      var after := Terminate(os, pid);
      var report := StatusOp(s, p, after);
      Outcome(report.msgs, report.halt, after, [Signalled(pid)])
  }

  /** `server.restart()`: `chain(stop(), start())`.  The chain is lazy, so
      when `stop` raises (the process was not running) `start` never runs. */
  function Restart(w: World, s: Store, p: Proc, os: Os): (o: Outcome)
    ensures Stop(s, p, os).halt.Some? ==> o == Stop(s, p, os)
    ensures Stop(s, p, os).halt.None? ==> o == Then(Stop(s, p, os), Start(w, s, p, Stop(s, p, os).os, []))
  {
    var stopped := Stop(s, p, os);
    if stopped.halt.Some? then stopped else Then(stopped, Start(w, s, p, stopped.os, []))
  }

  /** The commands every server answers through `getattr`. */
  predicate IsLifecycle(cmd: string) {
    cmd == "start" || cmd == "stop" || cmd == "status" || cmd == "restart"
  }

  /** `server.send(cmd)`: the method named `cmd`, called with no arguments;
      any other name is an error raised before anything runs. */
  function Send(w: World, s: Store, p: Proc, os: Os, cmd: string): (o: Outcome)
    ensures !IsLifecycle(cmd) ==> o == Halted(os, UnknownCommand(cmd))
    ensures cmd == "start" ==> o == Start(w, s, p, os, [])
    ensures cmd == "stop" ==> o == Stop(s, p, os)
    ensures cmd == "status" ==> o == StatusOp(s, p, os)
    ensures cmd == "restart" ==> o == Restart(w, s, p, os)
  {
    if cmd == "start" then Start(w, s, p, os, [])
    else if cmd == "stop" then Stop(s, p, os)
    else if cmd == "status" then StatusOp(s, p, os)
    else if cmd == "restart" then Restart(w, s, p, os)
    else Halted(os, UnknownCommand(cmd))
  }
}

=== FILE: server_laws.dfy ===
/** What the lifecycle protocol guarantees across calls: distinct identities
    own distinct pid files, a pid written in decimal reads back, and how
    `stop`, `start` and `restart` compose. */
module ServerLaws {
  import opened Results
  import opened Errors
  import opened Text
  import opened Settings
  import opened Server
  import Paths

  /** A file name determines its identity's class name, host and rendered
      port, provided neither class name contains `-` and neither host
      contains `_`. */
  lemma FileNameInjective(a: Identity, b: Identity, ext: string)
    requires '-' !in a.kind && '-' !in b.kind && '_' !in a.host && '_' !in b.host
    requires FileName(a, ext) == FileName(b, ext)
    ensures a.kind == b.kind && a.host == b.host && Show(a.port) == Show(b.port)
  {
    var ta, tb := Show(a.port) + ext, Show(b.port) + ext;
    var ra, rb := a.host + ("_" + ta), b.host + ("_" + tb);
    assert FileName(a, ext) == a.kind + ("-" + ra);
    assert FileName(b, ext) == b.kind + ("-" + rb);
    SplitUnique(a.kind, ra, b.kind, rb, '-');
    SplitUnique(a.host, ta, b.host, tb, '_');
    assert Show(a.port) == ta[..|ta| - |ext|] == Show(b.port);
  }

  lemma IdentityFileName(p: Proc, ext: string)
    ensures !Paths.IsAbsolute(FileName(Id(p), ext))
    ensures '-' !in Id(p).kind
  {
    var k := Id(p).kind;
    assert FileName(Id(p), ext)[0] == k[0];
  }

  /** Supervisors whose pid files coincide are the same class on the same
      host with the same rendered port (hosts without `_`): two distinct
      processes never share a pid file. */
  lemma PidFileInjective(s: Store, p: Proc, q: Proc)
    requires '_' !in p.host && '_' !in q.host
    requires PidFile(s, p).Success? && PidFile(s, p) == PidFile(s, q)
    ensures p.Lighttpd? == q.Lighttpd? && p.host == q.host && Show(p.port) == Show(q.port)
  {
    var dir := StrSetting(s, "DISCO_PID_DIR").value;
    IdentityFileName(p, ".pid");
    IdentityFileName(q, ".pid");
    Paths.JoinInjective(dir, FileName(Id(p), ".pid"), FileName(Id(q), ".pid"));
    FileNameInjective(Id(p), Id(q), ".pid");
  }

  /** The same holds for log files. */
  lemma LogFileInjective(s: Store, p: Proc, q: Proc)
    requires '_' !in p.host && '_' !in q.host
    requires LogFile(s, p).Success? && LogFile(s, p) == LogFile(s, q)
    ensures p.Lighttpd? == q.Lighttpd? && p.host == q.host && Show(p.port) == Show(q.port)
  {
    var dir := StrSetting(s, "DISCO_LOG_DIR").value;
    IdentityFileName(p, ".log");
    IdentityFileName(q, ".log");
    Paths.JoinInjective(dir, FileName(Id(p), ".log"), FileName(Id(q), ".log"));
    FileNameInjective(Id(p), Id(q), ".log");
  }

  /** No process's pid file is any process's log file, wherever the two
      directories point. */
  lemma PidFileIsNotLogFile(s: Store, p: Proc, q: Proc)
    requires PidFile(s, p).Success? && LogFile(s, q).Success?
    ensures PidFile(s, p).value != LogFile(s, q).value
  {
    FileEnding(s, p, "DISCO_PID_DIR", ".pid");
    FileEnding(s, q, "DISCO_LOG_DIR", ".log");
    PidIsNotLog(PidFile(s, p).value, LogFile(s, q).value);
  }

  /** A string identity stated apart, so that the larger proofs using it
      need not unfold string literals themselves. */
  lemma PidIsNotLog(a: string, b: string)
    requires EndsWith(a, ".pid") && EndsWith(b, ".log")
    ensures a != b
  {
    assert ".pid"[1] != ".log"[1];
    EndingsDiffer(a, b, ".pid", ".log");
  }

  /** A per-process file ends with its extension. */
  lemma FileEnding(s: Store, p: Proc, dirKey: string, ext: string)
    requires IdentityFile(s, p, dirKey, ext).Success?
    ensures EndsWith(IdentityFile(s, p, dirKey, ext).value, ext)
  {
    var name := FileName(Id(p), ext);
    EndsWithAppend(Id(p).kind + "-" + p.host + "_" + Show(p.port), ext);
    EndsWithTrans(IdentityFile(s, p, dirKey, ext).value, name, ext);
  }

  /** The file name keeps only the rendering of the port: a master whose
      SCGI port is the string `4444` shares its pid file with one whose port
      is the integer 4444, and a host containing `_` can collide with
      another host. */
  lemma IdentityCollisions(s: Store)
    requires StrSetting(s, "DISCO_PID_DIR").Success?
    ensures PidFile(s, Master("h", VStr("4444"))) == PidFile(s, Master("h", VInt(4444)))
    ensures PidFile(s, Master("a_b", VStr("c"))) == PidFile(s, Master("a", VStr("b_c")))
  {
    Decimal4444();
    assert FileName(Id(Master("a_b", VStr("c"))), ".pid") == "master-a_b_c.pid";
    assert FileName(Id(Master("a", VStr("b_c"))), ".pid") == "master-a_b_c.pid";
  }

  /** A pid file whose first line is a pid written by `str`, followed by
      nothing but whitespace, reads back as that pid, and the process counts
      as running exactly when that pid is live. */
  lemma ReadWrittenPid(s: Store, p: Proc, os: Os, pid: int, rest: string)
    requires PidFile(s, p).Success? && PidFile(s, p).value in os.files
    requires os.files[PidFile(s, p).value] == Decimal(pid) + rest
    requires Blank(FirstLine(rest))
    ensures ReadPid(s, p, os) == Some(pid)
    ensures Status(s, p, os) == Running <==> pid in os.live
  {
    var d := Decimal(pid);
    var b := FirstLine(rest);
    BeforeAppend(d, rest, '\n');
    assert (d + b)[0] == d[0];
    assert TrimLeft(d + b) == d + b;
    TrimRightBlank(d, b);
    DecimalRoundTrip(pid);
  }

  /** Without a pid file, or with one that does not start with an integer,
      the process counts as stopped. */
  lemma NoPidMeansStopped(s: Store, p: Proc, os: Os)
    requires PidFile(s, p).Failure? || PidFile(s, p).value !in os.files
             || ParseInt(Strip(FirstLine(os.files[PidFile(s, p).value]))).None?
    ensures Status(s, p, os) == Stopped
  {
  }

  /** Once `stop` has signalled a live pid that accepts the signal, the
      process is stopped and `stop` says so. */
  lemma StopLeavesStopped(s: Store, p: Proc, os: Os)
    requires Status(s, p, os) == Running && ReadPid(s, p, os).value !in os.shielded
    requires Describe(s, p).Success?
    ensures Status(s, p, Stop(s, p, os).os) == Stopped
    ensures Stop(s, p, os).msgs == [Describe(s, p).value + " stopped"]
  {
    var pid := ReadPid(s, p, os).value;
    TerminatedIsStopped(s, p, os, pid);
    StateLine(Describe(s, p).value, Stopped);
  }

  /** Terminating the pid a pid file names stops its process, unless the
      pid refuses the signal. */
  lemma TerminatedIsStopped(s: Store, p: Proc, os: Os, pid: int)
    requires ReadPid(s, p, os) == Some(pid) && pid !in os.shielded
    ensures ReadPid(s, p, Terminate(os, pid)) == Some(pid)
    ensures Status(s, p, Terminate(os, pid)) == Stopped
  {
    var after := Terminate(os, pid);
    assert after.files == os.files;
  }

  /** A string identity stated apart, so that the larger proofs using it
      need not unfold string literals themselves. */
  lemma StateLine(d: string, st: State)
    ensures d + " " + Word(st) == d + (if st == Running then " running" else " stopped")
  {
  }

  /** A start whose program runs but exits nonzero ends with the
      `DiscoError` `Failed to start <self>`, on the system the program left. */
  lemma FailedStartMessage(w: World, s: Store, p: Proc, os: Os, args: seq<string>)
    requires Status(s, p, os) == Stopped && Launch(s, p, args).Success? && Describe(s, p).Success?
    requires var run := w.exec(Launch(s, p, args).value.0, Launch(s, p, args).value.1, os);
             run.Exited? && run.code != 0
    ensures var o := Start(w, s, p, os, args);
            var run := w.exec(Launch(s, p, args).value.0, Launch(s, p, args).value.1, os);
            o.halt.Some? && IsDiscoError(o.halt.value) && o.os == run.after
            && Message(o.halt.value) == "Failed to start " + Describe(s, p).value
  {
  }

  /** A start never signals anything. */
  lemma StartOnlySpawns(w: World, s: Store, p: Proc, os: Os, args: seq<string>)
    ensures forall e :: e in Start(w, s, p, os, args).trace ==> e.Spawned?
  {
  }

  /** `restart` of a stopped process raises `"<self> already stopped"` and,
      the chain being lazy, never reaches `start`: nothing is spawned. */
  lemma RestartOfStopped(w: World, s: Store, p: Proc, os: Os)
    requires Status(s, p, os) == Stopped && Describe(s, p).Success?
    ensures Restart(w, s, p, os) == Halted(os, Already(Describe(s, p).value, Stopped))
  {
  }

  /** `restart` of a running process stops it, reports it stopped, then
      starts it afresh on the system the stop left behind. */
  lemma RestartOfRunning(w: World, s: Store, p: Proc, os: Os)
    requires Status(s, p, os) == Running && ReadPid(s, p, os).value !in os.shielded
    requires Describe(s, p).Success?
    ensures var o := Restart(w, s, p, os);
            var pid := ReadPid(s, p, os).value;
            var again := Start(w, s, p, Terminate(os, pid), []);
            Status(s, p, Terminate(os, pid)) == Stopped
            && o.msgs == [Describe(s, p).value + " stopped"] + again.msgs
            && o.trace == [Signalled(pid)] + again.trace
            && o.halt == again.halt && o.os == again.os
  {
    StopLeavesStopped(s, p, os);
  }

  /** A live pid that refuses the signal survives `stop`, so `restart`
      reports it still running and then fails the start precondition. */
  lemma RestartOfShielded(w: World, s: Store, p: Proc, os: Os)
    requires Status(s, p, os) == Running && ReadPid(s, p, os).value in os.shielded
    requires Describe(s, p).Success?
    ensures var o := Restart(w, s, p, os);
            var d := Describe(s, p).value;
            o.msgs == [d + " running"] && o.halt == Some(Already(d, Running))
            && o.trace == [Signalled(ReadPid(s, p, os).value)] && o.os == os
  {
    var d := Describe(s, p).value;
    var stopped := Stop(s, p, os);
    ShieldedSurvivesStop(s, p, os);
    StateLine(d, Running);
    assert stopped.msgs == [d + " running"];
    var again := Start(w, s, p, os, []);
    assert again == Halted(os, Already(d, Running));
    assert Restart(w, s, p, os) == Then(stopped, again);
  }

  /** `stop` of a live pid that refuses the signal leaves everything as it
      was and reports the process still running. */
  lemma ShieldedSurvivesStop(s: Store, p: Proc, os: Os)
    requires Status(s, p, os) == Running && ReadPid(s, p, os).value in os.shielded
    requires Describe(s, p).Success?
    ensures var o := Stop(s, p, os);
            o.os == os && o.halt.None? && o.trace == [Signalled(ReadPid(s, p, os).value)]
            && o.msgs == [Describe(s, p).value + " " + Word(Running)]
  {
  }
}

=== FILE: settings.dfy ===
/** `DiscoSettings`: user overrides layered over a table of default
    expressions, resolved lazily by recursive lookup, and the child
    environment built from them. */
module Settings {
  import opened Results
  import opened Errors
  import opened Text
  import Paths

  /** The Python values a setting may hold in this model: strings, ints and
      `None`.  Any other Python value is outside the model. */
  datatype Value = VStr(s: string) | VInt(i: int) | VNone

  /** Python's `str(v)`, also what `'%s' % v` inserts. */
  function Show(v: Value): string {
    match v
    case VStr(s) => s
    case VInt(i) => Decimal(i)
    case VNone => "None"
  }

  /** A default expression, as written in the default table.  `Format`
      concatenates the `%s`-rendering of its parts; `Join` is `os.path.join`;
      `Getenv(n, d)` is `os.getenv(n, d)`; `GuessErlang` is `guess_erlang()`. */
  datatype Expr =
    | Lit(v: Value)
    | Ref(key: string)
    | Format(parts: seq<Expr>)
    | Join(first: Expr, rest: seq<Expr>)
    | Getenv(name: string, fallback: Value)
    | GuessErlang

  /** The settings object: the overrides (bootstrap keys plus whatever the
      settings file assigned), and the parts of the host the defaults read:
      the inherited environment and the operating system's name. */
  datatype Store = Store(overrides: map<string, Value>, environ: map<string, string>, sysname: string)

  function S(lit: string): Expr {
    Lit(VStr(lit))
  }

  /** The default table (`DiscoSettings.defaults`). */
  const Defaults: map<string, Expr> := map[
    "DISCO_FLAGS" := S(""),
    "DISCO_LOG_DIR" := S("/var/log/disco"),
    "DISCO_MASTER_HOME" := S("/usr/lib/disco"),
    "DISCO_MASTER_PORT" := Ref("DISCO_PORT"),
    "DISCO_NAME" := Format([S("disco_"), Ref("DISCO_SCGI_PORT")]),
    "DISCO_PID_DIR" := S("/var/run"),
    "DISCO_PORT" := Lit(VInt(8989)),
    "DISCO_ROOT" := S("/srv/disco"),
    "DISCO_SCGI_PORT" := Lit(VInt(4444)),
    "DISCO_ULIMIT" := Lit(VInt(16000000)),
    "DISCO_USER" := Getenv("LOGNAME", VNone),
    "DISCO_DATA" := Join(Ref("DISCO_ROOT"), [S("data")]),
    "DISCO_MASTER_ROOT" := Join(Ref("DISCO_DATA"), [Format([S("_"), Ref("DISCO_NAME")])]),
    "DISCO_CONFIG" := Join(Ref("DISCO_ROOT"), [Format([Ref("DISCO_NAME"), S(".config")])]),
    "DISCO_LOCAL_DIR" := Join(Ref("DISCO_ROOT"), [S("local"), Format([S("_"), Ref("DISCO_NAME")])]),
    "DISCO_WORKER" := Join(Ref("DISCO_HOME"), [S("node"), S("disco-worker")]),
    "DISCO_ERLANG" := GuessErlang,
    "DISCO_HTTPD" := S("lighttpd"),
    "DISCO_WWW_ROOT" := Join(Ref("DISCO_MASTER_HOME"), [S("www")]),
    "PYTHONPATH" := Format([Getenv("PYTHONPATH", VStr("")), S(":"), Ref("DISCO_HOME"), S("/pydisco")])
  ]

  /** The keys of the default table, in the order the source lists them.
      Python 2 visits the table in hash order, so when several defaults
      fail it may report a different one of them; `Environment` promises
      only that the error comes from some failing key. */
  const DefaultKeys: seq<string> := [
    "DISCO_FLAGS", "DISCO_LOG_DIR", "DISCO_MASTER_HOME", "DISCO_MASTER_PORT",
    "DISCO_NAME", "DISCO_PID_DIR", "DISCO_PORT", "DISCO_ROOT", "DISCO_SCGI_PORT",
    "DISCO_ULIMIT", "DISCO_USER", "DISCO_DATA", "DISCO_MASTER_ROOT", "DISCO_CONFIG",
    "DISCO_LOCAL_DIR", "DISCO_WORKER", "DISCO_ERLANG", "DISCO_HTTPD",
    "DISCO_WWW_ROOT", "PYTHONPATH"
  ]

  /** A topological numbering of the default table: every key a default
      refers to has a smaller rank than the key it is the default of. */
  const Ranks: map<string, nat> := map[
    "DISCO_MASTER_PORT" := 1, "DISCO_NAME" := 1, "DISCO_DATA" := 1,
    "DISCO_WORKER" := 1, "DISCO_WWW_ROOT" := 1, "PYTHONPATH" := 1,
    "DISCO_MASTER_ROOT" := 2, "DISCO_CONFIG" := 2, "DISCO_LOCAL_DIR" := 2
  ]

  const MaxRank: nat := 2

  function Rank(key: string): (r: nat)
    ensures r <= MaxRank
  {
    if key in Ranks then Ranks[key] else 0
  }

  /** The keys an expression names. */
  function Refs(e: Expr): set<string>
    decreases Size(e)
  {
    match e
    case Ref(k) => {k}
    case Format(parts) => RefsAll(parts)
    case Join(first, rest) => Refs(first) + RefsAll(rest)
    case _ => {}
  }

  function RefsAll(es: seq<Expr>): set<string>
    decreases SizeAll(es)
  {
    if es == [] then {} else Refs(es[0]) + RefsAll(es[1..])
  }

  function Size(e: Expr): (n: nat)
    ensures n >= 1
  {
    match e
    case Format(parts) => 1 + SizeAll(parts)
    case Join(first, rest) => 1 + Size(first) + SizeAll(rest)
    case _ => 1
  }

  function SizeAll(es: seq<Expr>): (n: nat)
    ensures forall i :: 0 <= i < |es| ==> Size(es[i]) < n
  {
    if es == [] then 0 else 1 + Size(es[0]) + SizeAll(es[1..])
  }

  /** Every key `e` names has rank below `bound`. */
  predicate Below(e: Expr, bound: nat)
    decreases Size(e)
  {
    match e
    case Ref(k) => Rank(k) < bound
    case Format(parts) => AllBelow(parts, bound)
    case Join(first, rest) => Below(first, bound) && AllBelow(rest, bound)
    case _ => true
  }

  predicate AllBelow(es: seq<Expr>, bound: nat)
    decreases SizeAll(es)
  {
    forall i :: 0 <= i < |es| ==> Below(es[i], bound)
  }

  lemma {:induction false} BelowBoundsRefs(e: Expr, bound: nat, k: string)
    requires Below(e, bound) && k in Refs(e)
    ensures Rank(k) < bound
    decreases Size(e)
  {
    match e
    case Ref(_) =>
    case Format(parts) => AllBelowBoundsRefs(parts, bound, k);
    case Join(first, rest) =>
      if k in Refs(first) {
        BelowBoundsRefs(first, bound, k);
      } else {
        AllBelowBoundsRefs(rest, bound, k);
      }
  }

  lemma {:induction false} AllBelowBoundsRefs(es: seq<Expr>, bound: nat, k: string)
    requires AllBelow(es, bound) && k in RefsAll(es)
    ensures Rank(k) < bound
    decreases SizeAll(es)
  {
    if k in Refs(es[0]) {
      BelowBoundsRefs(es[0], bound, k);
    } else {
      assert AllBelow(es[1..], bound) by {
        forall i | 0 <= i < |es| - 1 ensures Below(es[1..][i], bound) {
          assert es[1..][i] == es[i + 1];
        }
      }
      AllBelowBoundsRefs(es[1..], bound, k);
    }
  }

  /** The default table is well ranked, so its reference graph is acyclic. */
  lemma DefaultsRanked(key: string)
    requires key in Defaults
    ensures Below(Defaults[key], Rank(key))
  {
    if Rank(key) == 0 {
      RankZeroRanked(key);
    } else {
      assert key in Ranks;
      RankedRanked(key);
    }
  }

  lemma RankZeroRanked(key: string)
    requires key in Defaults && key !in Ranks
    ensures Below(Defaults[key], 0)
  {
  }

  lemma RankedRanked(key: string)
    requires key in Ranks
    ensures key in Defaults && Below(Defaults[key], Ranks[key])
  {
    if key == "DISCO_MASTER_ROOT" {
      RankedAt(key, Join(Ref("DISCO_DATA"), [Format([S("_"), Ref("DISCO_NAME")])]));
    } else if key == "DISCO_CONFIG" {
      RankedAt(key, Join(Ref("DISCO_ROOT"), [Format([Ref("DISCO_NAME"), S(".config")])]));
    } else if key == "DISCO_LOCAL_DIR" {
      RankedAt(key, Join(Ref("DISCO_ROOT"), [S("local"), Format([S("_"), Ref("DISCO_NAME")])]));
    } else {
      RankOne(key);
    }
  }

  lemma RankedAt(key: string, e: Expr)
    requires key in Defaults && Defaults[key] == e && key in Ranks
    requires Below(e, Ranks[key])
    ensures Below(Defaults[key], Ranks[key])
  {
  }

  lemma RankOne(key: string)
    requires key in Ranks && Ranks[key] == 1
    ensures key in Defaults && Below(Defaults[key], 1)
  {
  }

  /** `settings[key]`: the override if there is one, otherwise the default
      expression evaluated against the same settings; a key in neither is a
      lookup error. */
  function Lookup(s: Store, key: string): (r: Result<Value, Error>)
    ensures key in s.overrides ==> r == Success(s.overrides[key])
    ensures key !in s.overrides && key !in Defaults ==> r == Failure(MissingSetting(key))
    decreases Rank(key), 1, 0
  {
    if key in s.overrides then Success(s.overrides[key])
    else if key in Defaults then
      DefaultsRanked(key);
      Eval(s, Defaults[key], Rank(key))
    else Failure(MissingSetting(key))
  }

  /** Evaluates a default expression left to right; the first failing part
      decides the error. */
  function Eval(s: Store, e: Expr, bound: nat): Result<Value, Error>
    requires Below(e, bound)
    decreases bound, 0, Size(e)
  {
    match e
    case Lit(v) => Success(v)
    case Ref(k) => Lookup(s, k)
    case Format(parts) =>
      var vs :- EvalAll(s, parts, bound);
      Success(VStr(ShowAll(vs)))
    case Join(first, rest) =>
      var v :- Eval(s, first, bound);
      var vs :- EvalAll(s, rest, bound);
      JoinValues(v, vs)
    case Getenv(name, fallback) =>
      Success(if name in s.environ then VStr(s.environ[name]) else fallback)
    case GuessErlang =>
      Success(VStr(if s.sysname == "Darwin" then "/usr/libexec/StartupItemContext erl" else "erl"))
  }

  function EvalAll(s: Store, es: seq<Expr>, bound: nat): (r: Result<seq<Value>, Error>)
    requires AllBelow(es, bound)
    ensures r.Success? <==> forall i :: 0 <= i < |es| ==> Eval(s, es[i], bound).Success?
    ensures r.Success? ==> |r.value| == |es| && forall i :: 0 <= i < |es| ==> r.value[i] == Eval(s, es[i], bound).value
    decreases bound, 0, SizeAll(es)
  {
    if es == [] then Success([])
    else
      var v :- Eval(s, es[0], bound);
      var vs :- EvalAll(s, es[1..], bound);
      Success([v] + vs)
  }

  /** Evaluating a list of parts succeeds with exactly the values of the parts. */
  lemma EvalAllOf(s: Store, es: seq<Expr>, bound: nat, vs: seq<Value>)
    requires AllBelow(es, bound)
    requires |vs| == |es|
    requires forall i :: 0 <= i < |es| ==> Eval(s, es[i], bound) == Success(vs[i])
    ensures EvalAll(s, es, bound) == Success(vs)
  {
    var r := EvalAll(s, es, bound);
    assert r.value == vs;
  }

  /** A key without an override takes its default's value. */
  lemma LookupDefault(s: Store, key: string, e: Expr)
    requires key !in s.overrides && key in Defaults && Defaults[key] == e
    ensures Below(e, Rank(key)) && Lookup(s, key) == Eval(s, e, Rank(key))
  {
    DefaultsRanked(key);
  }

  /** `'%s%s' % (a, b)`. */
  lemma EvalFormatPair(s: Store, a: Expr, b: Expr, bound: nat, va: Value, vb: Value)
    requires Below(a, bound) && Below(b, bound)
    requires Eval(s, a, bound) == Success(va) && Eval(s, b, bound) == Success(vb)
    ensures Eval(s, Format([a, b]), bound) == Success(VStr(Show(va) + Show(vb)))
  {
    EvalAllOf(s, [a, b], bound, [va, vb]);
    ShowPair(va, vb);
  }

  /** `os.path.join(a, b)`. */
  lemma EvalJoinPair(s: Store, a: Expr, b: Expr, bound: nat, x: string, y: string)
    requires Below(a, bound) && Below(b, bound)
    requires Eval(s, a, bound) == Success(VStr(x)) && Eval(s, b, bound) == Success(VStr(y))
    ensures Eval(s, Join(a, [b]), bound) == Success(VStr(Paths.Join(x, y)))
  {
    EvalAllOf(s, [b], bound, [VStr(y)]);
    EvalJoinOf(s, a, [b], bound, x, [VStr(y)]);
    assert Strings([VStr(y)]) == [y];
    Paths.JoinAllPair(x, y);
  }

  lemma EvalPair(s: Store, b: Expr, c: Expr, bound: nat, y: string, z: string)
    requires Below(b, bound) && Below(c, bound)
    requires Eval(s, b, bound) == Success(VStr(y)) && Eval(s, c, bound) == Success(VStr(z))
    ensures AllBelow([b, c], bound)
    ensures EvalAll(s, [b, c], bound) == Success([VStr(y), VStr(z)])
    ensures Strings([VStr(y), VStr(z)]) == [y, z]
  {
    var es, vs := [b, c], [VStr(y), VStr(z)];
    assert AllBelow(es, bound) by {
      assert es[0] == b && es[1] == c;
    }
    EvalAllOf(s, es, bound, vs);
  }

  /** `os.path.join(a, b)` with an absolute `b`: `a` is dropped unread. */
  lemma EvalJoinAbsolute(s: Store, a: Expr, b: Expr, bound: nat, va: Value, y: string)
    requires Below(a, bound) && Below(b, bound)
    requires Eval(s, a, bound) == Success(va) && Eval(s, b, bound) == Success(VStr(y))
    requires Paths.IsAbsolute(y)
    ensures Eval(s, Join(a, [b]), bound) == Success(VStr(y))
  {
    EvalAllOf(s, [b], bound, [VStr(y)]);
    assert Strings([VStr(y)]) == [y];
    Paths.JoinAllPair(if va.VStr? then va.s else "", y);
  }

  /** `os.path.join(a, b)` with a relative `b` and a non-string `a` fails. */
  lemma EvalJoinUnrooted(s: Store, a: Expr, b: Expr, bound: nat, va: Value, y: string)
    requires Below(a, bound) && Below(b, bound)
    requires Eval(s, a, bound) == Success(va) && Eval(s, b, bound) == Success(VStr(y))
    requires !va.VStr? && !Paths.IsAbsolute(y)
    ensures Eval(s, Join(a, [b]), bound) == Failure(NotAString("os.path.join"))
  {
    EvalAllOf(s, [b], bound, [VStr(y)]);
  }

  /** `os.path.join(a, b, c)`. */
  lemma EvalJoinTriple(s: Store, a: Expr, b: Expr, c: Expr, bound: nat, x: string, y: string, z: string)
    requires Below(a, bound) && Below(b, bound) && Below(c, bound)
    requires Eval(s, a, bound) == Success(VStr(x))
    requires Eval(s, b, bound) == Success(VStr(y)) && Eval(s, c, bound) == Success(VStr(z))
    ensures Eval(s, Join(a, [b, c]), bound) == Success(VStr(Paths.Join(Paths.Join(x, y), z)))
  {
    EvalPair(s, b, c, bound, y, z);
    EvalJoinOf(s, a, [b, c], bound, x, [VStr(y), VStr(z)]);
    Paths.JoinAllTriple(x, y, z);
  }

  /** `os.path.join` of parts that all evaluate to strings. */
  lemma EvalJoinOf(s: Store, a: Expr, rest: seq<Expr>, bound: nat, x: string, vs: seq<Value>)
    requires Below(a, bound) && AllBelow(rest, bound)
    requires Eval(s, a, bound) == Success(VStr(x)) && EvalAll(s, rest, bound) == Success(vs)
    requires forall i :: 0 <= i < |vs| ==> vs[i].VStr?
    ensures Below(Join(a, rest), bound)
    ensures Eval(s, Join(a, rest), bound) == Success(VStr(Paths.JoinAll(x, Strings(vs))))
  {
  }

  /** `os.path.join(path, *parts)` on arbitrary values, part by part: each
      part must be a string (`b.startswith` is called on it); an absolute
      part replaces the path built so far without looking at it; a relative
      part needs that path to be a string.  So a non-string first argument
      is harmless exactly when the first part is absolute. */
  function JoinValues(path: Value, parts: seq<Value>): (r: Result<Value, Error>)
    ensures r.Success? <==> (forall i :: 0 <= i < |parts| ==> parts[i].VStr?)
                            && (parts == [] || path.VStr? || Paths.IsAbsolute(parts[0].s))
    ensures r.Failure? ==> r.error == NotAString("os.path.join")
    ensures r.Success? && parts == [] ==> r.value == path
    ensures r.Success? && parts != [] ==>
      r.value == VStr(Paths.JoinAll(if path.VStr? then path.s else "", Strings(parts)))
    decreases |parts|
  {
    if parts == [] then Success(path)
    else if !parts[0].VStr? then Failure(NotAString("os.path.join"))
    else if Paths.IsAbsolute(parts[0].s) then
      var r := JoinValues(parts[0], parts[1..]);
      JoinValuesStep(if path.VStr? then path.s else "", parts, r);
      r
    else if !path.VStr? then Failure(NotAString("os.path.join"))
    else
      var r := JoinValues(VStr(Paths.Join(path.s, parts[0].s)), parts[1..]);
      JoinValuesStep(path.s, parts, r);
      r
  }

  /** One step of the fold, seen through `Strings`. */
  lemma JoinValuesStep(base: string, parts: seq<Value>, r: Result<Value, Error>)
    requires parts != [] && parts[0].VStr?
    requires r.Success? ==> forall i :: 0 <= i < |parts[1..]| ==> parts[1..][i].VStr?
    requires r.Success? && parts[1..] == [] ==> r.value == VStr(Paths.Join(base, parts[0].s))
    requires r.Success? && parts[1..] != [] ==> r.value == VStr(Paths.JoinAll(Paths.Join(base, parts[0].s), Strings(parts[1..])))
    ensures r.Success? ==> forall i :: 0 <= i < |parts| ==> parts[i].VStr?
    ensures r.Success? ==> r.value == VStr(Paths.JoinAll(base, Strings(parts)))
  {
    if r.Success? {
      forall i | 0 <= i < |parts| ensures parts[i].VStr? {
        if i > 0 { assert parts[i] == parts[1..][i - 1]; }
      }
      var ss := Strings(parts);
      assert ss[1..] == Strings(parts[1..]);
      assert Paths.JoinAll(base, ss) == Paths.JoinAll(Paths.Join(base, ss[0]), ss[1..]);
    }
  }

  function ShowAll(vs: seq<Value>): string {
    if vs == [] then [] else Show(vs[0]) + ShowAll(vs[1..])
  }

  lemma ShowPair(a: Value, b: Value)
    ensures ShowAll([a, b]) == Show(a) + Show(b)
  {
    assert ShowAll([b]) == Show(b);
  }

  function Strings(vs: seq<Value>): (r: seq<string>)
    requires forall i :: 0 <= i < |vs| ==> vs[i].VStr?
    ensures |r| == |vs| && forall i :: 0 <= i < |vs| ==> r[i] == vs[i].s
  {
    if vs == [] then [] else [vs[0].s] + Strings(vs[1..])
  }

  /** A setting used where the script needs a string (a path to join, a
      command line to split); anything else is the TypeError Python raises. */
  function StrSetting(s: Store, key: string): (r: Result<string, Error>)
    ensures r.Success? <==> Lookup(s, key).Success? && Lookup(s, key).value.VStr?
    ensures r.Success? ==> r.value == Lookup(s, key).value.s
  {
    var v :- Lookup(s, key);
    if v.VStr? then Success(v.s) else Failure(NotAString(key))
  }

  /** Default `a` refers to key `b`. */
  ghost predicate DependsOn(a: string, b: string) {
    a in Defaults && b in Refs(Defaults[a])
  }

  /** Along any chain of references between defaults the rank drops by at
      least one per step. */
  lemma {:induction false} ChainDescends(path: seq<string>)
    requires |path| >= 2
    requires forall i :: 0 <= i < |path| - 1 ==> DependsOn(path[i], path[i + 1])
    ensures Rank(path[|path| - 1]) + |path| - 1 <= Rank(path[0])
  {
    assert DependsOn(path[0], path[1]);
    DefaultsRanked(path[0]);
    BelowBoundsRefs(Defaults[path[0]], Rank(path[0]), path[1]);
    if |path| > 2 {
      ChainDescends(path[1..]);
    }
  }

  /** The default table has no cycle, and no chain of references between
      defaults is longer than three keys; resolution always terminates. */
  lemma DefaultsAcyclic(path: seq<string>)
    requires |path| >= 2
    requires forall i :: 0 <= i < |path| - 1 ==> DependsOn(path[i], path[i + 1])
    ensures path[0] != path[|path| - 1]
    ensures |path| <= MaxRank + 1
  {
    ChainDescends(path);
  }

  /** `DefaultKeys` enumerates exactly the keys of the default table. */
  lemma DefaultKeysEnumerate()
    ensures forall k :: k in Defaults <==> k in DefaultKeys
  {
  }

  /** `env.update((k, str(settings[k])) for k in keys)` applied to `base`,
      raising the first lookup error met. */
  function Overlay(s: Store, base: map<string, string>, keys: seq<string>): (r: Result<map<string, string>, Error>)
    ensures r.Success? <==> forall k :: k in keys ==> Lookup(s, k).Success?
    ensures r.Success? ==> forall k :: k in r.value <==> k in base || k in keys
    ensures r.Success? ==> forall k :: k in keys ==> r.value[k] == Show(Lookup(s, k).value)
    ensures r.Success? ==> forall k :: k in base && k !in keys ==> r.value[k] == base[k]
    ensures r.Failure? ==> exists k :: k in keys && Lookup(s, k) == Failure(r.error)
    decreases |keys|
  {
    if keys == [] then Success(base)
    else
      assert forall k :: k in keys <==> k == keys[0] || k in keys[1..];
      match Lookup(s, keys[0])
      case Failure(e) =>
        assert keys[0] in keys;
        Failure(e)
      case Success(v) => Overlay(s, base[keys[0] := Show(v)], keys[1..])
  }

  /** `DiscoSettings.env`: the inherited environment with every default-table
      key set to its resolved value, rendered with `str`. */
  function Environment(s: Store): (r: Result<map<string, string>, Error>)
    ensures r.Success? <==> forall k :: k in Defaults ==> Lookup(s, k).Success?
    ensures r.Success? ==> r.value.Keys == s.environ.Keys + Defaults.Keys
    ensures r.Success? ==> forall k :: k in Defaults ==> r.value[k] == Show(Lookup(s, k).value)
    ensures r.Success? ==> forall k :: k in s.environ && k !in Defaults ==> r.value[k] == s.environ[k]
    ensures r.Failure? ==> exists k :: k in Defaults && Lookup(s, k) == Failure(r.error)
  {
    EnvironmentSucceeds(s);
    EnvironmentKeys(s);
    EnvironmentValues(s);
    Overlay(s, s.environ, DefaultKeys)
  }

  lemma EnvironmentSucceeds(s: Store)
    ensures var r := Overlay(s, s.environ, DefaultKeys);
      (r.Success? <==> forall k :: k in Defaults ==> Lookup(s, k).Success?)
      && (r.Failure? ==> exists k :: k in Defaults && Lookup(s, k) == Failure(r.error))
  {
    DefaultKeysEnumerate();
  }

  lemma EnvironmentKeys(s: Store)
    ensures var r := Overlay(s, s.environ, DefaultKeys);
      r.Success? ==> r.value.Keys == s.environ.Keys + Defaults.Keys
  {
    DefaultKeysEnumerate();
  }

  lemma EnvironmentValues(s: Store)
    ensures var r := Overlay(s, s.environ, DefaultKeys);
      r.Success? ==> (forall k :: k in Defaults ==> r.value[k] == Show(Lookup(s, k).value))
                     && (forall k :: k in s.environ && k !in Defaults ==> r.value[k] == s.environ[k])
  {
    DefaultKeysEnumerate();
  }
}

=== FILE: settings_laws.dfy ===
/** How derived defaults follow the settings they are computed from. */
module SettingsLaws {
  import opened Results
  import opened Errors
  import opened Settings
  import Paths
  import Text

  /** The data directory follows the root, overridden or not. */
  lemma DataFollowsRoot(s: Store, root: string)
    requires "DISCO_DATA" !in s.overrides
    requires Lookup(s, "DISCO_ROOT") == Success(VStr(root))
    ensures Lookup(s, "DISCO_DATA") == Success(VStr(Paths.Join(root, "data")))
  {
    LookupDefault(s, "DISCO_DATA", Join(Ref("DISCO_ROOT"), [S("data")]));
    EvalJoinPair(s, Ref("DISCO_ROOT"), S("data"), 1, root, "data");
  }

  /** A root that is not a string makes the data directory an error. */
  lemma DataNeedsStringRoot(s: Store, root: Value)
    requires "DISCO_DATA" !in s.overrides
    requires Lookup(s, "DISCO_ROOT") == Success(root) && !root.VStr?
    ensures Lookup(s, "DISCO_DATA") == Failure(NotAString("os.path.join"))
  {
    LookupDefault(s, "DISCO_DATA", Join(Ref("DISCO_ROOT"), [S("data")]));
    EvalJoinUnrooted(s, Ref("DISCO_ROOT"), S("data"), 1, root, "data");
  }

  /** The cluster name follows the SCGI port, whatever its type. */
  lemma NameFollowsScgiPort(s: Store, port: Value)
    requires "DISCO_NAME" !in s.overrides
    requires Lookup(s, "DISCO_SCGI_PORT") == Success(port)
    ensures Lookup(s, "DISCO_NAME") == Success(VStr("disco_" + Show(port)))
  {
    LookupDefault(s, "DISCO_NAME", Format([S("disco_"), Ref("DISCO_SCGI_PORT")]));
    EvalFormatPair(s, S("disco_"), Ref("DISCO_SCGI_PORT"), 1, VStr("disco_"), port);
  }

  /** The master's HTTP port is the worker HTTP port unless overridden. */
  lemma MasterPortFollowsPort(s: Store)
    requires "DISCO_MASTER_PORT" !in s.overrides
    ensures Lookup(s, "DISCO_MASTER_PORT") == Lookup(s, "DISCO_PORT")
  {
    LookupDefault(s, "DISCO_MASTER_PORT", Ref("DISCO_PORT"));
  }

  /** The config file path follows the root and the cluster name. */
  lemma ConfigFollowsRoot(s: Store, root: string, name: Value)
    requires "DISCO_CONFIG" !in s.overrides
    requires Lookup(s, "DISCO_ROOT") == Success(VStr(root))
    requires Lookup(s, "DISCO_NAME") == Success(name)
    ensures Lookup(s, "DISCO_CONFIG") == Success(VStr(Paths.Join(root, Show(name) + ".config")))
  {
    var f := Format([Ref("DISCO_NAME"), S(".config")]);
    LookupDefault(s, "DISCO_CONFIG", Join(Ref("DISCO_ROOT"), [f]));
    EvalFormatPair(s, Ref("DISCO_NAME"), S(".config"), 2, name, VStr(".config"));
    EvalJoinPair(s, Ref("DISCO_ROOT"), f, 2, root, Show(name) + ".config");
  }

  /** A cluster name that is an absolute path moves the config file out of
      the root altogether: `os.path.join` drops the root without reading
      it, so the root may be any value, string or not. */
  lemma ConfigOfAbsoluteName(s: Store, root: Value, name: string)
    requires "DISCO_CONFIG" !in s.overrides
    requires Lookup(s, "DISCO_ROOT") == Success(root)
    requires Lookup(s, "DISCO_NAME") == Success(VStr(name)) && Paths.IsAbsolute(name)
    ensures Lookup(s, "DISCO_CONFIG") == Success(VStr(name + ".config"))
  {
    var f := Format([Ref("DISCO_NAME"), S(".config")]);
    LookupDefault(s, "DISCO_CONFIG", Join(Ref("DISCO_ROOT"), [f]));
    EvalFormatPair(s, Ref("DISCO_NAME"), S(".config"), 2, VStr(name), VStr(".config"));
    assert (name + ".config")[0] == name[0];
    EvalJoinAbsolute(s, Ref("DISCO_ROOT"), f, 2, root, name + ".config");
  }

  /** Otherwise a root that is not a string makes the config path an error. */
  lemma ConfigNeedsStringRoot(s: Store, root: Value, name: Value)
    requires "DISCO_CONFIG" !in s.overrides
    requires Lookup(s, "DISCO_ROOT") == Success(root) && !root.VStr?
    requires Lookup(s, "DISCO_NAME") == Success(name) && !Paths.IsAbsolute(Show(name) + ".config")
    ensures Lookup(s, "DISCO_CONFIG") == Failure(NotAString("os.path.join"))
  {
    var f := Format([Ref("DISCO_NAME"), S(".config")]);
    LookupDefault(s, "DISCO_CONFIG", Join(Ref("DISCO_ROOT"), [f]));
    EvalFormatPair(s, Ref("DISCO_NAME"), S(".config"), 2, name, VStr(".config"));
    EvalJoinUnrooted(s, Ref("DISCO_ROOT"), f, 2, root, Show(name) + ".config");
  }

  /** The local scratch directory follows the root and the cluster name. */
  lemma LocalDirFollowsRoot(s: Store, root: string, name: Value)
    requires "DISCO_LOCAL_DIR" !in s.overrides
    requires Lookup(s, "DISCO_ROOT") == Success(VStr(root))
    requires Lookup(s, "DISCO_NAME") == Success(name)
    ensures Lookup(s, "DISCO_LOCAL_DIR") == Success(VStr(Paths.Join(Paths.Join(root, "local"), "_" + Show(name))))
  {
    var f := Format([S("_"), Ref("DISCO_NAME")]);
    LookupDefault(s, "DISCO_LOCAL_DIR", Join(Ref("DISCO_ROOT"), [S("local"), f]));
    EvalFormatPair(s, S("_"), Ref("DISCO_NAME"), 2, VStr("_"), name);
    EvalJoinTriple(s, Ref("DISCO_ROOT"), S("local"), f, 2, root, "local", "_" + Show(name));
  }

  /** The master's data root follows the data directory and the cluster name. */
  lemma MasterRootFollowsData(s: Store, data: string, name: Value)
    requires "DISCO_MASTER_ROOT" !in s.overrides
    requires Lookup(s, "DISCO_DATA") == Success(VStr(data))
    requires Lookup(s, "DISCO_NAME") == Success(name)
    ensures Lookup(s, "DISCO_MASTER_ROOT") == Success(VStr(Paths.Join(data, "_" + Show(name))))
  {
    var f := Format([S("_"), Ref("DISCO_NAME")]);
    LookupDefault(s, "DISCO_MASTER_ROOT", Join(Ref("DISCO_DATA"), [f]));
    EvalFormatPair(s, S("_"), Ref("DISCO_NAME"), 2, VStr("_"), name);
    EvalJoinPair(s, Ref("DISCO_DATA"), f, 2, data, "_" + Show(name));
  }

  /** With no override, the SCGI port is 4444 and the cluster name `disco_4444`. */
  lemma DefaultName(s: Store)
    requires "DISCO_SCGI_PORT" !in s.overrides && "DISCO_NAME" !in s.overrides
    ensures Lookup(s, "DISCO_SCGI_PORT") == Success(VInt(4444))
    ensures Lookup(s, "DISCO_NAME") == Success(VStr("disco_4444"))
  {
    LookupDefault(s, "DISCO_SCGI_PORT", Lit(VInt(4444)));
    NameFollowsScgiPort(s, VInt(4444));
    Text.Decimal4444();
    assert "disco_" + "4444" == "disco_4444";
  }

  /** With the root overridden and the cluster name left alone, every path
      under the root moves with it. */
  lemma RootOverrideMovesPaths(s: Store, root: string)
    requires Lookup(s, "DISCO_ROOT") == Success(VStr(root))
    requires "DISCO_SCGI_PORT" !in s.overrides && "DISCO_NAME" !in s.overrides
    requires "DISCO_DATA" !in s.overrides && "DISCO_CONFIG" !in s.overrides
    requires "DISCO_LOCAL_DIR" !in s.overrides
    ensures Lookup(s, "DISCO_DATA") == Success(VStr(Paths.Join(root, "data")))
    ensures Lookup(s, "DISCO_CONFIG") == Success(VStr(Paths.Join(root, "disco_4444.config")))
    ensures Lookup(s, "DISCO_LOCAL_DIR") == Success(VStr(Paths.Join(Paths.Join(root, "local"), "_disco_4444")))
  {
    DataFollowsRoot(s, root);
    DefaultName(s);
    DefaultNameSpellings();
    ConfigFollowsRoot(s, root, VStr("disco_4444"));
    LocalDirFollowsRoot(s, root, VStr("disco_4444"));
  }

  /** A string identity stated apart, so that the larger proofs using it
      need not unfold string literals themselves. */
  lemma DefaultNameSpellings()
    ensures Show(VStr("disco_4444")) + ".config" == "disco_4444.config"
    ensures "_" + Show(VStr("disco_4444")) == "_disco_4444"
  {
  }

  /** A string identity stated apart, so that the larger proofs using it
      need not unfold string literals themselves. */
  lemma DataJoins()
    ensures Paths.Join("/srv/disco", "data") == "/srv/disco/data"
    ensures Paths.Join("/opt/x", "data") == "/opt/x/data"
  {
    assert Paths.Join("/srv/disco", "data") == "/srv/disco" + "/" + "data";
    assert Paths.Join("/opt/x", "data") == "/opt/x" + "/" + "data";
  }

  /** With no overrides at all the data directory is `/srv/disco/data`. */
  lemma DefaultDataDirectory(environ: map<string, string>, sysname: string)
    ensures Lookup(Store(map[], environ, sysname), "DISCO_DATA") == Success(VStr("/srv/disco/data"))
  {
    var s0 := Store(map[], environ, sysname);
    LookupDefault(s0, "DISCO_ROOT", S("/srv/disco"));
    DataFollowsRoot(s0, "/srv/disco");
    DataJoins();
  }

  /** With only the root set to `/opt/x`, the data directory is `/opt/x/data`. */
  lemma MovedDataDirectory(environ: map<string, string>, sysname: string)
    ensures Lookup(Store(map["DISCO_ROOT" := VStr("/opt/x")], environ, sysname), "DISCO_DATA")
         == Success(VStr("/opt/x/data"))
  {
    var s1 := Store(map["DISCO_ROOT" := VStr("/opt/x")], environ, sysname);
    assert "DISCO_DATA" !in s1.overrides;
    DataFollowsRoot(s1, "/opt/x");
    DataJoins();
  }
}

=== FILE: text.dfy ===
/** The string operations of Python 2 that the control script relies on:
    `str.isspace`, `str.strip`, `str.split()`, `str.split(c, 1)[0]`,
    `file.readline`, `str(int)` and `int(str)`. */
module Text {
  import opened Results

  /** `c.isspace()` for a byte string: space, tab, newline, vertical tab,
      form feed and carriage return. */
  predicate IsSpace(c: char) {
    c == ' ' || '\t' <= c <= '\r'
  }

  predicate IsDigit(c: char) {
    '0' <= c <= '9'
  }

  predicate NoSpace(s: string) {
    forall i :: 0 <= i < |s| ==> !IsSpace(s[i])
  }

  predicate AllDigits(s: string) {
    forall i :: 0 <= i < |s| ==> IsDigit(s[i])
  }

  /** `s.lstrip()`: drops the leading whitespace and nothing else. */
  function TrimLeft(s: string): (r: string)
    ensures |r| <= |s| && r == s[|s| - |r|..]
    ensures forall i :: 0 <= i < |s| - |r| ==> IsSpace(s[i])
    ensures r == [] || !IsSpace(r[0])
  {
    if s != [] && IsSpace(s[0]) then TrimLeft(s[1..]) else s
  }

  /** `s.rstrip()`: drops the trailing whitespace and nothing else. */
  function TrimRight(s: string): (r: string)
    ensures |r| <= |s| && r == s[..|r|]
    ensures forall i :: |r| <= i < |s| ==> IsSpace(s[i])
    ensures r == [] || !IsSpace(r[|r| - 1])
  {
    if s != [] && IsSpace(s[|s| - 1]) then TrimRight(s[..|s| - 1]) else s
  }

  /** `s.strip()`. */
  function Strip(s: string): string {
    TrimRight(TrimLeft(s))
  }

  /** `s.split(c, 1)[0]`: the text before the first `c`, or all of `s`. */
  function Before(s: string, c: char): (r: string)
    ensures |r| <= |s| && r == s[..|r|]
    ensures c !in r
    ensures |r| < |s| ==> s[|r|] == c
  {
    if s == [] || s[0] == c then [] else [s[0]] + Before(s[1..], c)
  }

  /** Text free of `c`, followed by nothing or by a `c`, is what comes
      before the first `c`. */
  lemma {:induction false} BeforeStops(a: string, tail: string, c: char)
    requires c !in a
    requires tail == [] || tail[0] == c
    ensures Before(a + tail, c) == a
  {
    if a != [] {
      assert (a + tail)[1..] == a[1..] + tail;
      BeforeStops(a[1..], tail, c);
    } else {
      assert a + tail == tail;
    }
  }

  /** Text free of `c` passes through `split(c, 1)[0]` untouched. */
  lemma {:induction false} BeforeAppend(a: string, tail: string, c: char)
    requires c !in a
    ensures Before(a + tail, c) == a + Before(tail, c)
  {
    if a != [] {
      assert (a + tail)[0] == a[0];
      assert (a + tail)[1..] == a[1..] + tail;
      BeforeAppend(a[1..], tail, c);
      assert a == [a[0]] + a[1..];
    } else {
      assert a + tail == tail;
    }
  }

  /** Text free of `c` followed by `c` splits a string in one way only. */
  lemma SplitUnique(a: string, x: string, b: string, y: string, c: char)
    requires c !in a && c !in b
    requires a + ([c] + x) == b + ([c] + y)
    ensures a == b && x == y
  {
    BeforeStops(a, [c] + x, c);
    BeforeStops(b, [c] + y, c);
    var n := a + ([c] + x);
    assert x == n[|a| + 1..];
    assert y == n[|b| + 1..];
  }

  predicate EndsWith(s: string, t: string) {
    |t| <= |s| && s[|s| - |t|..] == t
  }

  lemma EndsWithAppend(x: string, t: string)
    ensures EndsWith(x + t, t)
  {
  }

  lemma EndsWithTrans(s: string, t: string, u: string)
    requires EndsWith(s, t) && EndsWith(t, u)
    ensures EndsWith(s, u)
  {
    assert s[|s| - |u|..] == s[|s| - |t|..][|t| - |u|..];
  }

  /** Strings with different endings of the same length differ. */
  lemma EndingsDiffer(a: string, b: string, u: string, v: string)
    requires EndsWith(a, u) && EndsWith(b, v) && |u| == |v| && u != v
    ensures a != b
  {
  }

  /** The first line of a file's contents as `readline()` sees it, without
      its newline (which `strip()` removes anyway). */
  function FirstLine(contents: string): string {
    Before(contents, '\n')
  }

  /** The longest prefix of `s` free of whitespace. */
  function LeadingWord(s: string): (r: string)
    ensures |r| <= |s| && r == s[..|r|]
    ensures NoSpace(r)
    ensures |r| < |s| ==> IsSpace(s[|r|])
    ensures s != [] && !IsSpace(s[0]) ==> r != []
  {
    if s == [] || IsSpace(s[0]) then [] else [s[0]] + LeadingWord(s[1..])
  }

  /** `s.split()`: the maximal runs of non-whitespace, in order. */
  function Words(s: string): seq<string>
    decreases |s|
  {
    var t := TrimLeft(s);
    if t == [] then []
    else
      var w := LeadingWord(t);
      [w] + Words(t[|w|..])
  }

  predicate IsWord(w: string) {
    w != [] && NoSpace(w)
  }

  predicate AllWords(ws: seq<string>) {
    forall i :: 0 <= i < |ws| ==> IsWord(ws[i])
  }

  /** Every word `split()` yields is non-empty and free of whitespace. */
  lemma {:induction false} WordsAreWords(s: string)
    ensures AllWords(Words(s))
    decreases |s|
  {
    var t := TrimLeft(s);
    if t != [] {
      var w := LeadingWord(t);
      var rest := Words(t[|w|..]);
      WordsAreWords(t[|w|..]);
      assert IsWord(w);
      ConsWords(w, rest);
      assert Words(s) == [w] + rest;
    }
  }

  lemma ConsWords(w: string, ws: seq<string>)
    requires IsWord(w) && AllWords(ws)
    ensures AllWords([w] + ws)
  {
    var r := [w] + ws;
    forall i | 0 <= i < |r|
      ensures IsWord(r[i])
    {
      if i > 0 {
        assert r[i] == ws[i - 1];
      }
    }
  }

  function Concat(ws: seq<string>): string {
    if ws == [] then [] else ws[0] + Concat(ws[1..])
  }

  /** The characters of `s` that are not whitespace, in order. */
  function Visible(s: string): (r: string)
    ensures NoSpace(r)
  {
    if s == [] then []
    else if IsSpace(s[0]) then Visible(s[1..])
    else [s[0]] + Visible(s[1..])
  }

  lemma {:induction false} VisibleAppend(a: string, b: string)
    ensures Visible(a + b) == Visible(a) + Visible(b)
  {
    if a == [] {
      assert a + b == b;
    } else {
      assert (a + b)[1..] == a[1..] + b;
      VisibleAppend(a[1..], b);
    }
  }

  lemma {:induction false} VisibleOfSpaces(s: string)
    requires forall i :: 0 <= i < |s| ==> IsSpace(s[i])
    ensures Visible(s) == []
  {
    if s != [] {
      VisibleOfSpaces(s[1..]);
    }
  }

  lemma {:induction false} VisibleOfWord(s: string)
    requires NoSpace(s)
    ensures Visible(s) == s
  {
    if s != [] {
      VisibleOfWord(s[1..]);
    }
  }

  lemma VisibleSkipsLeadingSpace(s: string)
    ensures Visible(TrimLeft(s)) == Visible(s)
  {
    var t := TrimLeft(s);
    var pre := s[..|s| - |t|];
    assert s == pre + t;
    VisibleAppend(pre, t);
    VisibleOfSpaces(pre);
  }

  lemma VisibleSplitsAtWord(t: string)
    ensures Visible(t) == LeadingWord(t) + Visible(t[|LeadingWord(t)|..])
  {
    var w := LeadingWord(t);
    assert t == w + t[|w|..];
    VisibleAppend(w, t[|w|..]);
    VisibleOfWord(w);
  }

  /** `split()` loses only whitespace: gluing the words back together gives
      every visible character of the input, in order. */
  lemma {:induction false} WordsKeepVisible(s: string)
    ensures Concat(Words(s)) == Visible(s)
    decreases |s|
  {
    var t := TrimLeft(s);
    VisibleSkipsLeadingSpace(s);
    if t != [] {
      var w := LeadingWord(t);
      var rest := t[|w|..];
      WordsKeepVisible(rest);
      VisibleSplitsAtWord(t);
      var ws := [w] + Words(rest);
      assert Words(s) == ws;
      assert ws[1..] == Words(rest);
      assert Concat(ws) == w + Concat(Words(rest));
    }
  }

  /** `' '.join(ws)`. */
  function Unwords(ws: seq<string>): string
    decreases |ws|
  {
    if ws == [] then [] else if |ws| == 1 then ws[0] else ws[0] + (" " + Unwords(ws[1..]))
  }

  /** A word ends at the first whitespace after it. */
  lemma {:induction false} LeadingWordOf(w: string, rest: string)
    requires NoSpace(w) && (rest == [] || IsSpace(rest[0]))
    ensures LeadingWord(w + rest) == w
    decreases |w|
  {
    if w == [] {
      assert w + rest == rest;
    } else {
      assert (w + rest)[0] == w[0];
      assert (w + rest)[1..] == w[1..] + rest;
      LeadingWordOf(w[1..], rest);
      assert [w[0]] + w[1..] == w;
    }
  }

  /** A word standing at the front is split off whole. */
  lemma WordThen(w: string, rest: string)
    requires IsWord(w) && (rest == [] || IsSpace(rest[0]))
    ensures Words(w + rest) == [w] + Words(rest)
  {
    var t := w + rest;
    assert t[0] == w[0];
    assert TrimLeft(t) == t;
    LeadingWordOf(w, rest);
    assert t[|w|..] == rest;
  }

  /** A leading space separates and is otherwise lost. */
  lemma SpaceThen(rest: string)
    ensures Words(" " + rest) == Words(rest)
  {
    var t := " " + rest;
    assert t[0] == ' ' && t[1..] == rest;
    assert TrimLeft(t) == TrimLeft(rest);
  }

  /** A single word splits into itself. */
  lemma WordsOfWord(w: string)
    requires IsWord(w)
    ensures Words(w) == [w]
  {
    WordThen(w, []);
    assert w + [] == w;
    assert TrimLeft([]) == [];
  }

  /** A word, a space, then more text. */
  lemma WordsOfCons(w: string, rest: string)
    requires IsWord(w)
    ensures Words(w + (" " + rest)) == [w] + Words(rest)
  {
    SpaceThen(rest);
    WordThen(w, " " + rest);
  }

  lemma AllWordsTail(ws: seq<string>)
    requires ws != [] && AllWords(ws)
    ensures IsWord(ws[0]) && AllWords(ws[1..])
  {
    forall i | 0 <= i < |ws[1..]| ensures IsWord(ws[1..][i]) {
      assert ws[1..][i] == ws[i + 1];
    }
  }

  /** `' '.join(ws).split() == ws` for words: `split()` cuts exactly at the
      whitespace and keeps each word whole. */
  lemma {:induction false} WordsOfUnwords(ws: seq<string>)
    requires AllWords(ws)
    ensures Words(Unwords(ws)) == ws
    decreases |ws|
  {
    if ws == [] {
      UnwordsNone(ws);
    } else if |ws| == 1 {
      UnwordsOne(ws);
    } else {
      AllWordsTail(ws);
      WordsOfUnwords(ws[1..]);
      UnwordsCons(ws);
    }
  }

  lemma UnwordsNone(ws: seq<string>)
    requires ws == []
    ensures Words(Unwords(ws)) == ws
  {
    assert Unwords(ws) == [];
    assert TrimLeft([]) == [];
  }

  lemma UnwordsOne(ws: seq<string>)
    requires |ws| == 1 && AllWords(ws)
    ensures Words(Unwords(ws)) == ws
  {
    AllWordsTail(ws);
    WordsOfWord(ws[0]);
    assert Unwords(ws) == ws[0];
    assert ws == [ws[0]];
  }

  lemma UnwordsCons(ws: seq<string>)
    requires |ws| >= 2 && IsWord(ws[0]) && Words(Unwords(ws[1..])) == ws[1..]
    ensures Words(Unwords(ws)) == ws
  {
    var w, rest := ws[0], Unwords(ws[1..]);
    calc {
      Words(Unwords(ws));
      { assert Unwords(ws) == w + (" " + rest); }
      Words(w + (" " + rest));
      { WordsOfCons(w, rest); }
      [w] + Words(rest);
      [w] + ws[1..];
      { assert ws == [w] + ws[1..]; }
      ws;
    }
  }

  function DigitChar(d: nat): char
    requires d < 10
  {
    ['0', '1', '2', '3', '4', '5', '6', '7', '8', '9'][d]
  }

  /** The decimal digits of `n` without leading zeros. */
  function Digits(n: nat): (r: string)
    ensures r != [] && AllDigits(r)
  {
    if n < 10 then [DigitChar(n)] else Digits(n / 10) + [DigitChar(n % 10)]
  }

  /** The rendering of the default SCGI port. */
  lemma Decimal4444()
    ensures Decimal(4444) == "4444"
  {
    assert Digits(4) == "4";
    assert Digits(44) == Digits(4) + ['4'];
    assert Digits(444) == Digits(44) + ['4'];
    assert Digits(4444) == Digits(444) + ['4'];
  }

  /** `str(i)` for a Python int. */
  function Decimal(i: int): (r: string)
    ensures r != [] && !IsSpace(r[0]) && !IsSpace(r[|r| - 1])
    ensures '\n' !in r
  {
    if i < 0 then ['-'] + Digits(-i) else Digits(i)
  }

  /** The number a string of decimal digits denotes. */
  function DigitsValue(s: string): nat
    requires AllDigits(s)
  {
    if s == [] then 0
    else DigitsValue(s[..|s| - 1]) * 10 + ((s[|s| - 1] as int) - ('0' as int))
  }

  /** The strings `int()` accepts once stripped: at least one decimal
      digit, optionally after a sign.  Python 2 skips whitespace again
      after the sign, so `int('- 5') == -5`. */
  predicate IsIntLiteral(s: string) {
    if s != [] && (s[0] == '-' || s[0] == '+') then
      var t := TrimLeft(s[1..]); t != [] && AllDigits(t)
    else s != [] && AllDigits(s)
  }

  /** `int(s)` for a string already stripped; `None` where Python raises
      ValueError. */
  function ParseInt(s: string): (r: Option<int>)
    ensures r.Some? <==> IsIntLiteral(s)
  {
    if s != [] && (s[0] == '-' || s[0] == '+') then Magnitude(TrimLeft(s[1..]), s[0] == '-')
    else Magnitude(s, false)
  }

  /** The value of a run of digits, negated when `negative`. */
  function Magnitude(t: string, negative: bool): (r: Option<int>)
    ensures r.Some? <==> t != [] && AllDigits(t)
  {
    if t != [] && AllDigits(t) then
      var v: int := DigitsValue(t);
      Some(if negative then -v else v)
    else None
  }

  /** Only whitespace. */
  predicate Blank(s: string) {
    forall i :: 0 <= i < |s| ==> IsSpace(s[i])
  }

  /** `lstrip` drops a blank prefix in front of a visible character. */
  lemma {:induction false} TrimLeftBlank(b: string, d: string)
    requires Blank(b) && d != [] && !IsSpace(d[0])
    ensures TrimLeft(b + d) == d
    decreases |b|
  {
    if b == [] {
      assert b + d == d;
    } else {
      assert (b + d)[0] == b[0];
      assert (b + d)[1..] == b[1..] + d;
      TrimLeftBlank(b[1..], d);
    }
  }

  /** `rstrip` drops a blank suffix behind a visible character. */
  lemma {:induction false} TrimRightBlank(d: string, b: string)
    requires Blank(b) && d != [] && !IsSpace(d[|d| - 1])
    ensures TrimRight(d + b) == d
    decreases |b|
  {
    if b == [] {
      assert d + b == d;
    } else {
      var n := d + b;
      assert n[|n| - 1] == b[|b| - 1];
      assert n[..|n| - 1] == d + b[..|b| - 1];
      TrimRightBlank(d, b[..|b| - 1]);
    }
  }

  /** Digits without a sign. */
  lemma ParseUnsigned(d: string)
    requires d != [] && AllDigits(d)
    ensures ParseInt(d) == Some(DigitsValue(d) as int)
  {
    assert IsDigit(d[0]);
  }

  /** A sign, then any whitespace, then digits: the whitespace is skipped,
      the digits keep their value and the sign its meaning. */
  lemma ParseSigned(c: char, sp: string, d: string)
    requires (c == '-' || c == '+') && Blank(sp) && d != [] && AllDigits(d)
    ensures ParseInt([c] + sp + d) == Some(if c == '-' then -(DigitsValue(d) as int) else DigitsValue(d) as int)
  {
    SignedMagnitude(c, sp, d);
    MagnitudeOf(d, c == '-');
  }

  lemma SignedMagnitude(c: char, sp: string, d: string)
    requires (c == '-' || c == '+') && Blank(sp) && d != [] && AllDigits(d)
    ensures ParseInt([c] + sp + d) == Magnitude(d, c == '-')
  {
    var s := [c] + sp + d;
    assert IsDigit(d[0]);
    SignedRest(c, sp, d);
    assert s != [] && s[0] == c;
  }

  lemma MagnitudeOf(d: string, negative: bool)
    requires d != [] && AllDigits(d)
    ensures Magnitude(d, negative) == Some(if negative then -(DigitsValue(d) as int) else DigitsValue(d) as int)
  {
  }

  lemma SignedRest(c: char, sp: string, d: string)
    requires Blank(sp) && d != [] && !IsSpace(d[0])
    ensures TrimLeft(([c] + sp + d)[1..]) == d
  {
    assert ([c] + sp + d)[1..] == sp + d;
    TrimLeftBlank(sp, d);
  }

  lemma {:induction false} DigitsRoundTrip(n: nat)
    ensures DigitsValue(Digits(n)) == n
  {
    if n >= 10 {
      var d := Digits(n / 10) + [DigitChar(n % 10)];
      assert d[..|d| - 1] == Digits(n / 10);
      DigitsRoundTrip(n / 10);
    }
  }

  /** A minus sign directly followed by digits. */
  lemma ParseMinus(d: string, s: string)
    requires d != [] && AllDigits(d) && s == ['-'] + d
    ensures ParseInt(s) == Some(-(DigitsValue(d) as int))
  {
    assert Blank([]);
    ParseSigned('-', [], d);
    assert ['-'] + [] + d == s;
  }

  /** `int(str(i)) == i`: every integer the script writes reads back. */
  lemma DecimalRoundTrip(i: int)
    ensures ParseInt(Decimal(i)) == Some(i)
  {
    if i < 0 {
      var n: nat := -i;
      DigitsRoundTrip(n);
      var d := Digits(n);
      var s := ['-'] + d;
      assert Decimal(i) == s;
      ParseMinus(d, s);
    } else {
      var d := Digits(i);
      DigitsRoundTrip(i);
      assert Decimal(i) == d;
      ParseUnsigned(d);
    }
  }
}
